=== FILE: README.md ===
# Nebulosa wallet logic in Dafny

A model of the decision logic of the Nebulosa Stellar wallet, a Flet
desktop app. The model covers:

- the key classifier (`BalanceProcessor.validate_key`);
- the balance normaliser and its stable ordering (`process_balance_entry`,
  `process_balances`);
- the transaction processor (`check_account_exists`, `build_transaction`,
  `process_transaction`) in both copies: the public-network copy in the core
  services and the testnet copy in the transfer page;
- the transfer page's field validation and form state;
- the standalone wallet screen's secret mask, copy guard and balance summary;
- the mnemonic display's word split and two-column layout.

Nothing in the model talks to the Stellar SDK or to Horizon. Each
collaborator is a record of functions passed as a parameter:

- `Oracles.Sdk` parses keys and decimals, and seals (builds and signs)
  transactions.
- `Oracles.Horizon` looks up accounts, loads the source account, fetches the
  base fee and accepts or rejects a submission.

So every property below holds whatever the SDK and the network answer. An
operation that reaches the network returns, with its result, the list of
Horizon calls it made, in order. That is how "nothing is loaded or
submitted" is stated. Exceptions are values: `Fetch.Failed(cause)` or
`Outcome.Fail(cause)`, where `cause` is the exception's `str(...)`. Python's
truthiness of an optional text is `Base.Truthy`.

Modules:

| file | module | models |
|---|---|---|
| base.dfy | `Base` | options, failing calls, truthiness |
| models.dfy | `Models` | `wallet_app/app/core/models.py` |
| oracles.dfy | `Oracles` | the SDK and Horizon as parameters, the call trace |
| key_classifier.dfy | `KeyClassifier` | `validate_key` |
| text.dfy | `Text` | Python's string order, `str.join`, decimal numerals |
| stable_sort.dfy | `StableSort` | `list.sort` with a key: a stable insertion sort |
| balances.dfy | `Balances` | `process_balance_entry`, `process_balances` |
| transactions.dfy | `Transactions` | both `TransactionProcessor` copies |
| transfer_form.dfy | `TransferForm` | `TransferPage` validation and form state |
| wallet_app.dfy | `WalletApp` | `create_wallet_app.py` |
| mnemonic.dfy | `Mnemonic` | `MnemonicDisplay` |

`validate_key` rejects a non-empty key whose length is not 56 before it
looks at the first character (wallet_app/app/core/services.py:92-96), so
`validate_key` only hands 56-character keys to the SDK.

## Model

| member | source | states |
|---|---|---|
| `Base.TextOf` | wallet_app/app/ui/pages/transfer_page.py:349-351 | a truthy field yields its non-empty text, anything else the empty text |
| `Models.OperationTypeOf` | wallet_app/app/core/models.py:5-7 | building an operation type from a tag yields a member carrying that tag; it fails only for a tag no member carries |
| `Models.OperationTypeRoundTrip` | wallet_app/app/core/models.py:5-7 | reading a member back from its `.value` gives the same member |
| `Models.OperationTypeTagsDistinct` | wallet_app/app/core/models.py:5-7 | the two members have distinct tags |
| `Models.KeyTypeTagsDistinct` | wallet_app/app/core/models.py:25-28 | the three key kinds have pairwise distinct tags |
| `Models.RecordDefaults` | wallet_app/app/core/models.py:9-34 | a two-argument `TransactionResult` has no operation type and no hash; a one-argument `KeyValidationResult` has empty texts; a four-argument `TransactionData` has no memo and no asset |
| `KeyClassifier.ValidateKey` | wallet_app/app/core/services.py:86-120 | empty input, then wrong length, give fixed messages; PUBLIC exactly for a 56-character `G` key the SDK accepts, carrying the input; PRIVATE exactly for a 56-character `S` key the SDK parses, carrying the derived key; INVALID carries no key and always a message; any other result has no message |
| `KeyClassifier.NoParseBeforeShapeChecks` | wallet_app/app/core/services.py:86-115 | a key that is empty, of the wrong length or with a first character other than `G` and `S` gets the same INVALID answer from any two SDKs; at length 56 that answer is "Chave inválida" |
| `KeyClassifier.ParseFailureReported` | wallet_app/app/core/services.py:116-120 | an SDK parse failure becomes INVALID with "Chave inválida: " and the SDK's explanation |
| `KeyClassifier.ReturnedKeyIsPublic` | wallet_app/app/core/services.py:99-110 | with an SDK whose derived keys are valid public keys, every returned key is one the SDK accepts as public, and a secret is never handed back |
| `Text.Less` | wallet_app/app/core/services.py:162-167 | Python's `<` on `str`: a string never precedes itself, and a proper prefix precedes the whole |
| `Text.LessIffFirstDifference` | wallet_app/app/core/services.py:162-167 | one string sorts before another exactly when it is a proper prefix of it or has the smaller code point at the first difference, as Python compares `str` |
| `Text.LessTransitive` | wallet_app/app/core/services.py:162-167 | Python's string order is transitive |
| `Text.LessTotal` | wallet_app/app/core/services.py:162-167 | of two different strings, one sorts before the other |
| `Text.NatToString` | wallet_app/app/ui/components/mnemonic.py:12 | the decimal numeral of a number is non-empty, all digits, and has no leading zero |
| `Text.NatToStringRoundTrip` | wallet_app/app/ui/components/mnemonic.py:12 | reading the numeral back gives the number |
| `Text.NatToStringInjective` | wallet_app/app/ui/components/mnemonic.py:12 | different numbers get different numerals |
| `StableSort.Sort` | wallet_app/app/core/services.py:162-167 | the result rearranges the input without losing or adding an element, no element comes after one with a larger key, and the elements sharing a key keep their input order |
| `StableSort.SortIsUnique` | wallet_app/app/core/services.py:162-167 | a sorted list with the input's per-key orders is the sort's result, so the sort is fully determined by those two properties |
| `StableSort.SortIdempotent` | wallet_app/app/core/services.py:162-167 | sorting a sorted list changes nothing |
| `Balances.ProcessBalanceEntry` | wallet_app/app/core/services.py:133-152 | the record has exactly the five fields; balance defaults to "0" and type to "native"; code is "XLM" for native and "Pool Shares" for pools, otherwise copied; issuer only for types other than native and pool shares, and pool id only for pools |
| `Balances.EntryFixedPoints` | wallet_app/app/core/services.py:133-152 | the records the normaliser leaves unchanged are exactly the normalised ones |
| `Balances.EntryIdempotent` | wallet_app/app/core/services.py:133-152 | normalising a normalised record changes nothing |
| `Balances.Rank` | wallet_app/app/core/services.py:156-164 | rank 0 exactly for native, 1 exactly for the two credit kinds, 2 exactly for pool shares, 3 for anything else |
| `Balances.MapEntries` | wallet_app/app/core/services.py:155 | one normalised record per raw record, in input order |
| `Balances.ProcessBalances` | wallet_app/app/core/services.py:154-168 | a rearrangement of the normalised records, same length, empty for empty input, ordered by rank then code, with equal-key records in input order |
| `Balances.ProcessBalancesIdempotent` | wallet_app/app/core/services.py:154-168 | processing a processed listing changes nothing |
| `Balances.ProcessBalancesUnique` | wallet_app/app/core/services.py:154-168 | any listing in rank-then-code order that keeps input order among equal keys is the one returned |
| `Transactions.CheckAccountExists` | wallet_app/app/core/services.py:10-19 | true exactly when the lookup succeeds; false exactly for "not found" and a bad response; any other error is raised with the probe prefix and its cause |
| `Transactions.OperationFor` | wallet_app/app/core/services.py:33-46 | create-account always builds a create operation with the amount as starting balance; a transfer builds a native payment exactly when the selector is "XLM (Nativo)" and otherwise fails with "Ativo não suportado" |
| `Transactions.BuildTransaction` | wallet_app/app/core/services.py:21-51 | the base fee is fetched first; the plan carries the loaded account, the variant's passphrase, the fee, the requested operation, and the memo exactly when it is truthy |
| `Transactions.Failure` | wallet_app/app/core/services.py:78-79 | a caught exception gives a failure with no hash and no type whose message is "Erro na transação: " followed by the cause |
| `Transactions.SignAndSubmit` | wallet_app/app/core/services.py:66-79 | a sealing failure submits nothing; the envelope submitted has a 30-second timeout; success exactly when the network accepts it, carrying its hash; a sealing failure or a rejection gives "Erro na transação: " followed by that exception's text |
| `Transactions.LoadBuildSubmit` | wallet_app/app/core/services.py:63-79 | the source is loaded first, then the fee fetched, then one submission of the built envelope; success exactly when that submission is accepted; a failed load, fee fetch, sealing or submission gives "Erro na transação: " followed by that step's exception text, and an unbuildable operation "Ativo não suportado" |
| `Transactions.ProcessTransaction` | wallet_app/app/core/services.py:53-79 | success exactly when the fourth call is an accepted submission, with its hash and the request's operation type; a failure is a business-rule refusal or a prefixed exception text, never with a hash; calls happen in the order probe, load, fee, submit; the load follows only a probe that answered and fits the operation, the fee only a successful load, and the submission only a fetched fee and a buildable operation; whichever step fails, the message is "Erro na transação: " followed by that step's exception text |
| `Transactions.SubmittedEnvelope` | wallet_app/app/core/services.py:21-69 | what is submitted is the requested operation, from the loaded source, on the variant's network, with the fetched fee, a 30-second timeout, the secret's owner as signer, and the memo only when truthy |
| `Transactions.SecretParsedFirst` | wallet_app/app/core/services.py:54-56 | a secret the SDK rejects ends the attempt before any network call |
| `Transactions.ProbeErrorReported` | wallet_app/app/core/services.py:18-19 | a probe that fails other than with "not found" or a bad response ends the attempt after the probe with "Erro na transação: Erro ao checar conta destino: " and the cause |
| `Transactions.TransferToMissingAccountRefused` | wallet_app/app/core/services.py:56-59 | a transfer to an account that is not found or gets a bad response is refused with "A conta de destino não existe" after the probe alone |
| `Transactions.CreateExistingAccountRefused` | wallet_app/app/core/services.py:60-61 | creating an existing account is refused with "A conta de destino já existe" and nothing is loaded or submitted |
| `Transactions.RefusalsExactly` | wallet_app/app/core/services.py:56-63 | the refusal messages appear exactly when the secret parses, the probe answers, and the answer does not fit the operation; then nothing is sent |
| `Transactions.NonNativeTransferNeverSubmitted` | wallet_app/app/core/services.py:38-41 | a transfer of anything but the native selector never succeeds and never submits; once the fee is fetched it fails with the unsupported-asset text |
| `Transactions.CreateAccountIgnoresAsset` | wallet_app/app/core/services.py:33-37 | the asset selector has no effect on account creation |
| `Transactions.NativeTransferSucceeds` | wallet_app/app/core/services.py:53-76 | a native transfer to an existing account with every network step answering succeeds with the network's hash |
| `Transactions.VariantsAgreeBeforeBuilding` | wallet_app/app/ui/pages/transfer_page.py:36-104 | the testnet copy makes the same calls and reaches the same result as the services copy until a transaction is built |
| `TransferForm.AmountCheck` | wallet_app/app/ui/pages/transfer_page.py:259-264 | the amount passes exactly when it parses to a number above zero; an unreadable amount or a NaN is "Quantidade inválida"; a number not above zero is "A quantidade deve ser maior que zero" |
| `TransferForm.ValidateFields` | wallet_app/app/ui/pages/transfer_page.py:251-276 | no message exactly when all six checks pass; any message is non-empty |
| `TransferForm.ValidateFieldsReportsFirstFailure` | wallet_app/app/ui/pages/transfer_page.py:251-276 | the message is the first failing check's in the order secret present, recipient present, amount present, amount valid, secret valid, recipient valid |
| `TransferForm.BlankIsNotMissing` | wallet_app/app/ui/pages/transfer_page.py:252-257 | `None` and `""` count as missing, a blank text does not |
| `TransferForm.MissingSecretReportedFirst` | wallet_app/app/ui/pages/transfer_page.py:252-253 | a missing secret is reported whatever the other fields hold |
| `TransferForm.InitialForm` | wallet_app/app/ui/pages/transfer_page.py:170-191 | the page starts with transfer chosen, the selector unlocked on the native asset, the plain amount label, empty fields, the button enabled, and no spinner, error or dialog |
| `TransferForm.OnOperationTypeChange` | wallet_app/app/ui/pages/transfer_page.py:244-249 | the selector is locked exactly for create-account and then shows the native asset; switching back keeps its value; the amount label becomes "Quantidade Inicial (XLM)" for create-account and "Quantidade" otherwise; nothing else changes |
| `TransferForm.CreateThenTransferLeavesNative` | wallet_app/app/ui/pages/transfer_page.py:244-249 | going to create-account and back leaves the selector unlocked on the native asset |
| `TransferForm.ClearFields` | wallet_app/app/ui/pages/transfer_page.py:296-300 | the four text fields become empty and nothing else changes |
| `TransferForm.ShowError` | wallet_app/app/ui/pages/transfer_page.py:289-294 | the message is shown and nothing else changes |
| `TransferForm.ProcessTransactionFlow` | wallet_app/app/ui/pages/transfer_page.py:341-366 | a validation error is shown without any network call; otherwise the testnet processor runs on the form's contents, a success clears the fields and records the hash, a failure shows the processor's message; an operation value that is no tag shows "Erro inesperado: " and its quoted text, without any call |
| `TransferForm.HandleTransaction` | wallet_app/app/ui/pages/transfer_page.py:334-371 | whatever happens, the button ends enabled and the spinner hidden; the selector and operation are untouched |
| `TransferForm.SuccessClearsForm` | wallet_app/app/ui/pages/transfer_page.py:359-361 | after a success the four fields are empty and no error shows, so pressing again stops at the first check without a network call |
| `TransferForm.FailureKeepsFields` | wallet_app/app/ui/pages/transfer_page.py:362-363 | after a failed submission every field is kept and the processor's message is shown |
| `WalletApp.Mask` | create_wallet_app.py:32 | the mask is 56 bullet characters |
| `WalletApp.InitialApp` | create_wallet_app.py:195-346 | the screen starts with no keypair, the mask shown and the reveal icon in step with it, the public key blank, the key cards and balance card hidden, the balance button disabled, the summary "Nenhum outro ativo", and nothing popped up |
| `WalletApp.TogglePrivateKey` | create_wallet_app.py:60-74 | without a keypair nothing changes; from the mask the secret shows with the "hide" icon; from any other text the mask returns with the "show" icon |
| `WalletApp.SecretIsNotMask` | create_wallet_app.py:64-66 | a secret starting with `S` is never mistaken for the mask |
| `WalletApp.ToggleTwiceRestoresMask` | create_wallet_app.py:64-71 | revealing and hiding again returns to the masked screen |
| `WalletApp.TogglePreservesIconMatch` | create_wallet_app.py:64-71 | the toggle keeps the icon in step with the text |
| `WalletApp.CreateWallet` | create_wallet_app.py:21-47 | the new keypair is shown with its secret masked, the key cards and balance button enabled, and the icon left as it was; the balance card and summary are kept and "Carteira criada com sucesso!" is announced |
| `WalletApp.CreateWalletAfterRevealShowsHideIcon` | create_wallet_app.py:28-36 | reveal, then create another wallet: the secret is masked but the button still shows the "hide" icon |
| `WalletApp.CreateWalletResettingIcon` | create_wallet_app.py:28-36 | with the icon reset alongside the mask, the icon matches the text after a creation |
| `WalletApp.IconStaysInStep` | create_wallet_app.py:60-71 | with the corrected creation, every sequence of creations and toggles keeps the icon in step with the text |
| `WalletApp.CopyPrivateKey` | create_wallet_app.py:140-145 | something is copied exactly when a keypair with a non-empty secret exists, and it is that secret |
| `WalletApp.Index` | create_wallet_app.py:98-103 | subscripting a record succeeds exactly for a present key and otherwise raises a `KeyError` naming it |
| `WalletApp.BalanceLine` | create_wallet_app.py:98-103 | "XLM: balance" for native, "code: balance" otherwise; it fails exactly when a key the line reads is missing, and the failure is the `KeyError` text of the first missing key in reading order: type, then code for a non-native asset, then balance |
| `WalletApp.BalanceLines` | create_wallet_app.py:97-103 | one line per record in input order, or the failure of the first record that has none |
| `WalletApp.OtherAssets` | create_wallet_app.py:105 | fewer than two lines give "Nenhum outro ativo" |
| `WalletApp.OtherAssetsDropsFirstLine` | create_wallet_app.py:105 | the first line is dropped whatever it says, and the rest are joined with " \| " |
| `WalletApp.OtherAssetsShowsLaterLines` | create_wallet_app.py:105 | every line after the first appears in the summary |
| `WalletApp.JoinContainsParts` | create_wallet_app.py:105 | each part of a join appears in it |
| `WalletApp.CheckBalance` | create_wallet_app.py:76-134 | with no keypair only a message, and no call; otherwise one lookup of the public key, then the summary, the "not activated" dialog, or "Erro ao verificar saldo: " and the cause for a bad record or any other failed lookup, which leaves the card and summary as they were; nothing but the card, the summary and the notice ever changes |
| `Mnemonic.IsSpace` | wallet_app/app/ui/components/mnemonic.py:6 | the separators of `str.split()`: within ASCII exactly space, tab, newline, carriage return, vertical tab, form feed and U+001C to U+001F; beyond ASCII exactly U+0085, U+00A0, U+1680, U+2000 to U+200A, U+2028, U+2029, U+202F, U+205F and U+3000, the characters Python's `str.isspace` accepts |
| `Mnemonic.Words` | wallet_app/app/ui/components/mnemonic.py:6 | every word is non-empty and has no whitespace |
| `Mnemonic.WordsKeepEveryCharacter` | wallet_app/app/ui/components/mnemonic.py:6 | the words run together are the phrase without its whitespace |
| `Mnemonic.WordsOfJoin` | wallet_app/app/ui/components/mnemonic.py:6 | splitting words joined by single spaces gives the words back |
| `Mnemonic.WordsOfWord` | wallet_app/app/ui/components/mnemonic.py:6 | a phrase that is one word splits into just that word |
| `Mnemonic.WordsSplitAtSpace` | wallet_app/app/ui/components/mnemonic.py:6 | every separator splits the phrase: the words of a phrase are those before the separator followed by those after it; with `WordsOfWord` this fixes the split of every phrase |
| `Mnemonic.LeadingSeparatorsDropped` | wallet_app/app/ui/components/mnemonic.py:6 | runs of separators, leading or inner, are dropped: `"  a b"` splits into `a` and `b` |
| `Mnemonic.Label` | wallet_app/app/ui/components/mnemonic.py:12 | the label is `#` followed by digits, without a leading zero, that read back as i+1, so it is exactly `#` and the numeral of i+1 |
| `Mnemonic.LabelsDistinct` | wallet_app/app/ui/components/mnemonic.py:12 | different positions get different numbers |
| `Mnemonic.Cards` | wallet_app/app/ui/components/mnemonic.py:28-31 | one card per word, in order, the word at index i numbered i+1 |
| `Mnemonic.Columns` | wallet_app/app/ui/components/mnemonic.py:33-41 | the two columns together are the cards in order; the first has n div 2 and the second the rest, never shorter and at most one longer |
| `Mnemonic.ColumnsShowPhrase` | wallet_app/app/ui/components/mnemonic.py:6-41 | the columns hold one card per word; the cards they split show each word in order, numbered from one, with no number repeated |

## Left out

- Stellar SDK internals are parameters (`Oracles.Sdk`), not modelled. That covers the key format and checksum, key derivation, `Keypair.random`, decimal parsing, transaction assembly and signing. `set_timeout(30).build()` and `sign(...)` are one sealing step that may fail.
- Horizon I/O is a parameter too (`Oracles.Horizon`). The server URLs are not modelled, and an accepted submission always carries a hash: a response without `hash` is not modelled.
- `generate_wallet` (wallet_app/app/core/services.py:170-178) is not modelled: it only wraps `Keypair.random` and mnemonic generation.
- `fetch_account_data` (wallet_app/app/core/services.py:122-131) and the balance page are not modelled. They are network I/O with fixed messages.
- `asyncio.sleep`, `time.sleep`, `asyncio.run` and `page.update()` are left out because they only pace the screen.
- The big balance figure at create_wallet_app.py:100 is not modelled. That figure is `float(...)` formatted to two decimals. A `float(...)` that raises on a non-numeric native balance is not modelled either, so `WalletApp.BalanceLine` accepts any balance text.
- The wallet screen's loading spinner and the error path of `create_wallet` are left out. Key generation is a parameter, so it cannot fail.
- The clipboard and the "copied" snack bar are left out. So is the `print` when there is nothing to copy. `WalletApp.CopyPrivateKey` returns only the copied text.
- `close_dlg` and the success dialog's widgets are left out; the form records only the hash it would show.
- The Flet layout is left out: headers, buttons, colours, navigation, the balance card widget and the word-card styling.
- Three broken revisions are left out because they do not run as written: `key_cards.py`, `wallet_page.py` and `wallet_app/app/wallet_app.py`.
- The package `__init__` files are left out; they only re-export names.
- The radio group's value is modelled as free text, so an unknown value reaches `OperationType(...)` and becomes "Erro inesperado: ...".
- TransferForm.NotAnOperationType: wraps the value in single quotes, as Python's `repr` does for text without quotes, backslashes or unprintable characters; for other text Python picks other quotes or escapes, which the model does not reproduce. The radio group only offers the two tags.
- `Text.Join` has no contract of its own; what the summary needs of it is stated by `WalletApp.JoinContainsParts`.
- WalletApp.OtherAssetsShowsLaterLines: states that each later line occurs in the summary, not that the lines occur in order with " | " between them; `WalletApp.OtherAssetsDropsFirstLine` gives the exact text.

## Findings

| source | as written | input that shows it | evidently intended | confidence | as-written member | corrected member |
|---|---|---|---|---|---|---|
| create_wallet_app.py:28-36 | `create_wallet` masks the secret again but does not reset the reveal button's icon | create a wallet, press reveal (icon becomes VISIBILITY_OFF), create another wallet: the mask is shown while the icon still offers to hide | reset the icon to VISIBILITY together with the mask, as the toggle at create_wallet_app.py:70-71 does | medium, not executed | `WalletApp.CreateWalletAfterRevealShowsHideIcon` | `WalletApp.IconStaysInStep` |

=== FILE: balances.dfy ===
/** `BalanceProcessor.process_balance_entry` and `process_balances`: raw
    Horizon balance records mapped to one uniform shape, then ordered by
    asset kind and code. */
module Balances {
  import Text
  import opened StableSort

  /** A balance record as a Python dict of strings. */
  type Dict = map<string, string>

  /** `d.get(k, default)`. */
  function Get(d: Dict, k: string, default: string): string
  {
    if k in d then d[k] else default
  }

  /** The keys of every normalised record. */
  const Fields: set<string> := {"balance", "asset_type", "asset_code", "asset_issuer", "liquidity_pool_id"}

  const Native := "native"
  const PoolShares := "liquidity_pool_shares"

  /** The shape `process_balance_entry` produces: the five fields, with the
      display code, issuer and pool id that the asset type dictates. */
  ghost predicate Normalised(d: Dict)
  {
    && d.Keys == Fields
    && (d["asset_type"] == Native ==>
          d["asset_code"] == "XLM" && d["asset_issuer"] == "" && d["liquidity_pool_id"] == "")
    && (d["asset_type"] == PoolShares ==>
          d["asset_code"] == "Pool Shares" && d["asset_issuer"] == "")
    && (d["asset_type"] != Native && d["asset_type"] != PoolShares ==>
          d["liquidity_pool_id"] == "")
  }

  function ProcessBalanceEntry(raw: Dict): (r: Dict)
    ensures Normalised(r)
    // the amount and the type are copied, with their documented defaults
    ensures r["balance"] == Get(raw, "balance", "0")
    ensures r["asset_type"] == Get(raw, "asset_type", Native)
    // every type other than native and pool shares keeps its own code and
    // issuer; pools keep their id
    ensures r["asset_type"] != Native && r["asset_type"] != PoolShares ==>
              r["asset_code"] == Get(raw, "asset_code", "") && r["asset_issuer"] == Get(raw, "asset_issuer", "")
    ensures r["asset_type"] == PoolShares ==> r["liquidity_pool_id"] == Get(raw, "liquidity_pool_id", "")
  {
    var assetType := Get(raw, "asset_type", Native);
    var base := map[
      "balance" := Get(raw, "balance", "0"),
      "asset_type" := assetType,
      "asset_code" := "",
      "asset_issuer" := "",
      "liquidity_pool_id" := ""];
    if assetType == Native then
      base["asset_code" := "XLM"]
    else if assetType == PoolShares then
      base["asset_code" := "Pool Shares"]["liquidity_pool_id" := Get(raw, "liquidity_pool_id", "")]
    else
      base["asset_code" := Get(raw, "asset_code", "")]["asset_issuer" := Get(raw, "asset_issuer", "")]
  }

  /** The records `process_balance_entry` leaves unchanged are exactly the
      normalised ones; so applying it twice is applying it once. */
  lemma EntryFixedPoints(d: Dict)
    ensures ProcessBalanceEntry(d) == d <==> Normalised(d)
  {
    if Normalised(d) {
      var r := ProcessBalanceEntry(d);
      assert r.Keys == d.Keys;
      forall k | k in Fields
        ensures r[k] == d[k]
      {
      }
    }
  }

  lemma EntryIdempotent(raw: Dict)
    ensures ProcessBalanceEntry(ProcessBalanceEntry(raw)) == ProcessBalanceEntry(raw)
  {
    EntryFixedPoints(ProcessBalanceEntry(raw));
  }

  /** The rank of an asset type in the listing. */
  function Rank(assetType: string): (r: nat)
    ensures r <= 3
    ensures r == 0 <==> assetType == Native
    ensures r == 2 <==> assetType == PoolShares
    ensures r == 1 <==> assetType in {"credit_alphanum4", "credit_alphanum12"}
  {
    if assetType == Native then 0
    else if assetType == "credit_alphanum4" || assetType == "credit_alphanum12" then 1
    else if assetType == PoolShares then 2
    else 3
  }

  /** The `(type rank, asset_code)` sort key. */
  function KeyOf(d: Dict): SortKey
  {
    SortKey(Rank(Get(d, "asset_type", "")), Get(d, "asset_code", ""))
  }

  function MapEntries(raws: seq<Dict>): (r: seq<Dict>)
    ensures |r| == |raws|
    ensures forall i :: 0 <= i < |raws| ==> r[i] == ProcessBalanceEntry(raws[i])
  {
    seq(|raws|, i requires 0 <= i < |raws| => ProcessBalanceEntry(raws[i]))
  }

  /** The listing's order: by rank, then by code as Python compares
      strings. */
  ghost predicate InListingOrder(s: seq<Dict>)
  {
    forall i, j :: 0 <= i < j < |s| ==>
      var a, b := KeyOf(s[i]), KeyOf(s[j]);
      a.rank < b.rank || (a.rank == b.rank && !Text.Less(b.code, a.code))
  }

  function ProcessBalances(raws: seq<Dict>): (r: seq<Dict>)
    ensures |r| == |raws|
    ensures raws == [] ==> r == []
    // a rearrangement of the normalised records
    ensures multiset(r) == multiset(MapEntries(raws))
    ensures forall i :: 0 <= i < |r| ==> Normalised(r[i])
    // ordered by rank, then code
    ensures InListingOrder(r)
    // records with equal keys keep their input order
    ensures forall k :: Filter(r, k, KeyOf) == Filter(MapEntries(raws), k, KeyOf)
  {
    var mapped := MapEntries(raws);
    SortFacts(mapped);
    Sort(mapped, KeyOf)
  }

  lemma SortFacts(mapped: seq<Dict>)
    ensures |Sort(mapped, KeyOf)| == |mapped|
    ensures multiset(Sort(mapped, KeyOf)) == multiset(mapped)
    ensures InListingOrder(Sort(mapped, KeyOf))
    ensures forall k :: Filter(Sort(mapped, KeyOf), k, KeyOf) == Filter(mapped, k, KeyOf)
    ensures (forall i :: 0 <= i < |mapped| ==> Normalised(mapped[i])) ==>
              forall i :: 0 <= i < |Sort(mapped, KeyOf)| ==> Normalised(Sort(mapped, KeyOf)[i])
  {
    var r := Sort(mapped, KeyOf);
    forall i, j | 0 <= i < j < |r|
      ensures var a, b := KeyOf(r[i]), KeyOf(r[j]);
              a.rank < b.rank || (a.rank == b.rank && !Text.Less(b.code, a.code))
    {
      assert !KeyLess(KeyOf(r[j]), KeyOf(r[i]));
    }
    if forall i :: 0 <= i < |mapped| ==> Normalised(mapped[i]) {
      forall i | 0 <= i < |r|
        ensures Normalised(r[i])
      {
        assert r[i] in multiset(mapped);
      }
    }
  }

  /** Normalising a normalised listing changes nothing. */
  lemma ProcessBalancesIdempotent(raws: seq<Dict>)
    ensures ProcessBalances(ProcessBalances(raws)) == ProcessBalances(raws)
  {
    var once := ProcessBalances(raws);
    forall i | 0 <= i < |once|
      ensures ProcessBalanceEntry(once[i]) == once[i]
    {
      EntryFixedPoints(once[i]);
    }
    assert MapEntries(once) == once;
    SortIdempotent(MapEntries(raws), KeyOf);
  }

  /** `ProcessBalances` is the one stable ordering of the normalised records:
      any listing in that order, with the input order kept among records
      of equal key, is the one it returns. */
  lemma ProcessBalancesUnique(raws: seq<Dict>, listing: seq<Dict>)
    requires InListingOrder(listing)
    requires forall k :: Filter(listing, k, KeyOf) == Filter(MapEntries(raws), k, KeyOf)
    ensures listing == ProcessBalances(raws)
  {
    forall i, j | 0 <= i < j < |listing|
      ensures !KeyLess(KeyOf(listing[j]), KeyOf(listing[i]))
    {
      Text.LessAsymmetric(KeyOf(listing[i]).code, KeyOf(listing[j]).code);
    }
    SortIsUnique(MapEntries(raws), listing, KeyOf);
  }
}

=== FILE: base.dfy ===
/** Shared value types: optional values, failing computations, and the
    Python truthiness of an optional string. */
module Base {

  /** `None` stands for Python's `None`. */
  datatype Option<+T> = None | Some(value: T)

  /** The outcome of a call that either produces a value or raises an
      exception; `cause` is the exception's `str(...)`. */
  datatype Fetch<+T> = Got(value: T) | Failed(cause: string)

  /** The outcome of a call that produces nothing but may raise. */
  datatype Outcome = Pass | Fail(cause: string)

  /** Python's `bool(x)` for an `Optional[str]`: `None` and `""` are falsy. */
  predicate Truthy(x: Option<string>)
  {
    x.Some? && x.value != ""
  }

  /** The value of a text field, read as `cast(str, field.value)` reads it
      once the field is known to be truthy. */
  function TextOf(x: Option<string>): (r: string)
    ensures Truthy(x) ==> r == x.value && r != ""
    ensures !Truthy(x) ==> r == ""
  {
    if x.Some? then x.value else ""
  }
}

=== FILE: key_classifier.dfy ===
/** `BalanceProcessor.validate_key`: sorts a free-text string into a public
    key, a secret key or neither, never raising. */
module KeyClassifier {
  import opened Base
  import opened Models
  import opened Oracles

  const KeyLength := 56
  const EnterKeyMessage := "Por favor, insira uma chave Stellar"
  const LengthMessage := "Chave Stellar deve ter exatamente 56 caracteres"
  const InvalidKeyMessage := "Chave inválida"
  const InvalidKeyPrefix := "Chave inválida: "

  /** A result of the `Invalid` kind with the given message. */
  function Rejected(message: string): KeyValidationResult
  {
    KeyValidationResult(Invalid, errorMessage := message)
  }

  /** Emptiness first, then the length, then the leading character, and
      only then the SDK parse whose failure is caught and reported. */
  function ValidateKey(sdk: Sdk, key: Option<string>): (r: KeyValidationResult)
    // the presence and length checks come before anything else
    ensures !Truthy(key) ==> r == Rejected(EnterKeyMessage)
    ensures Truthy(key) && |key.value| != KeyLength ==> r == Rejected(LengthMessage)
    // an invalid result never carries a key, and always says why
    ensures r.keyType == Invalid ==> r.publicKey == "" && r.errorMessage != ""
    ensures r.keyType != Invalid ==> r.errorMessage == ""
    // a public key is returned exactly when the SDK accepts a G-key of the right length
    ensures r.keyType == Public <==>
              key.Some? && |key.value| == KeyLength && key.value[0] == 'G' && sdk.fromPublicKey(key.value).Pass?
    ensures r.keyType == Public ==> r.publicKey == key.value
    // a secret is reported through the public key derived from it
    ensures r.keyType == Private <==>
              key.Some? && |key.value| == KeyLength && key.value[0] == 'S' && sdk.fromSecret(key.value).Got?
    ensures r.keyType == Private ==> r.publicKey == sdk.fromSecret(key.value).value
  {
    if !Truthy(key) then Rejected(EnterKeyMessage)
    else if |key.value| != KeyLength then Rejected(LengthMessage)
    else if key.value[0] == 'G' then
      match sdk.fromPublicKey(key.value)
      case Pass => KeyValidationResult(Public, publicKey := key.value)
      case Fail(cause) => Rejected(InvalidKeyPrefix + cause)
    else if key.value[0] == 'S' then
      match sdk.fromSecret(key.value)
      case Got(pub) => KeyValidationResult(Private, publicKey := pub)
      case Failed(cause) => Rejected(InvalidKeyPrefix + cause)
    else Rejected(InvalidKeyMessage)
  }

  /** A key that is empty, of the wrong length or with a leading character
      other than `G` and `S` is classified without consulting the SDK: any
      two SDKs give the same answer. */
  lemma NoParseBeforeShapeChecks(sdk1: Sdk, sdk2: Sdk, key: Option<string>)
    requires !Truthy(key) || |key.value| != KeyLength || key.value[0] !in {'G', 'S'}
    ensures ValidateKey(sdk1, key) == ValidateKey(sdk2, key)
    ensures ValidateKey(sdk1, key).keyType == Invalid
    ensures Truthy(key) && |key.value| == KeyLength ==> ValidateKey(sdk1, key) == Rejected(InvalidKeyMessage)
  {
  }

  /** A parse failure is reported with the SDK's own explanation. */
  lemma ParseFailureReported(sdk: Sdk, key: string)
    requires |key| == KeyLength
    requires (key[0] == 'G' && sdk.fromPublicKey(key).Fail?) || (key[0] == 'S' && sdk.fromSecret(key).Failed?)
    ensures ValidateKey(sdk, Some(key)).keyType == Invalid
    ensures ValidateKey(sdk, Some(key)).errorMessage ==
              InvalidKeyPrefix + (if key[0] == 'G' then sdk.fromPublicKey(key).cause else sdk.fromSecret(key).cause)
  {
  }

  /** An SDK whose derived public keys are themselves valid public keys. */
  ghost predicate Coherent(sdk: Sdk)
  {
    && DerivesPublicKeys(sdk)
    && forall s :: sdk.fromSecret(s).Got? ==> sdk.fromPublicKey(sdk.fromSecret(s).value).Pass?
  }

  /** With a coherent SDK, whatever key the classifier hands back is a
      public key the SDK accepts, and a secret never comes back: the
      returned key never starts with `S`, so in particular it is not the
      input when the input was a secret. */
  lemma ReturnedKeyIsPublic(sdk: Sdk, key: Option<string>)
    requires Coherent(sdk)
    ensures var r := ValidateKey(sdk, key);
            r.keyType != Invalid ==> sdk.fromPublicKey(r.publicKey).Pass? && r.publicKey[0] == 'G'
    ensures var r := ValidateKey(sdk, key);
            r.keyType == Private ==> r.publicKey != key.value
  {
    var r := ValidateKey(sdk, key);
    if r.keyType == Private {
      assert sdk.fromSecret(key.value).Got?;
      assert r.publicKey[0] == 'G' != key.value[0];
    }
  }
}

=== FILE: mnemonic.dfy ===
/** `MnemonicDisplay`: the phrase split into words, each word numbered from
    one, and the numbered words laid out in two columns, the second never
    shorter than the first. */
module Mnemonic {
  import Text

  /** The characters Python's `str.split()` treats as separators. */
  predicate IsSpace(c: char)
    // within ASCII: the six C whitespace characters and the four
    // information separators
    ensures c < '\U{80}' ==> (IsSpace(c) <==> c in " \t\n\r\U{0b}\U{0c}\U{1c}\U{1d}\U{1e}\U{1f}")
    // beyond ASCII: the next-line control, the no-break spaces, the
    // Unicode space separators and the line and paragraph separators
    ensures c >= '\U{80}' ==> (IsSpace(c) <==> c in "\U{85}\U{a0}\U{1680}\U{2000}\U{2001}\U{2002}\U{2003}\U{2004}\U{2005}\U{2006}\U{2007}\U{2008}\U{2009}\U{200a}\U{2028}\U{2029}\U{202f}\U{205f}\U{3000}")
  {
    || c == ' ' || ('\t' <= c <= '\r') || ('\U{1c}' <= c <= '\U{1f}')
    || c == '\U{85}' || c == '\U{a0}' || c == '\U{1680}'
    || ('\U{2000}' <= c <= '\U{200a}') || c == '\U{2028}' || c == '\U{2029}'
    || c == '\U{202f}' || c == '\U{205f}' || c == '\U{3000}'
  }

  predicate NoSpace(w: string)
  {
    forall i :: 0 <= i < |w| ==> !IsSpace(w[i])
  }

  /** A word as `split()` yields it: non-empty, without separators. */
  predicate IsWord(w: string)
  {
    w != "" && NoSpace(w)
  }

  /** The length of the word `s` starts with. */
  function WordLength(s: string): (n: nat)
    requires |s| > 0 && !IsSpace(s[0])
    ensures 1 <= n <= |s|
    ensures NoSpace(s[..n])
    ensures n < |s| ==> IsSpace(s[n])
    decreases |s|
  {
    if |s| == 1 || IsSpace(s[1]) then 1
    else
      var n := 1 + WordLength(s[1..]);
      assert s[..n] == [s[0]] + s[1..][..n - 1];
      n
  }

  /** `phrase.split()`: the maximal runs of non-separator characters. */
  function Words(s: string): (r: seq<string>)
    ensures forall i :: 0 <= i < |r| ==> IsWord(r[i])
    decreases |s|
  {
    if |s| == 0 then []
    else if IsSpace(s[0]) then Words(s[1..])
    else
      var n := WordLength(s);
      [s[..n]] + Words(s[n..])
  }

  /** All the words run together. */
  function Concat(ws: seq<string>): string
  {
    if |ws| == 0 then "" else ws[0] + Concat(ws[1..])
  }

  /** The phrase with its separators removed. */
  function Squeeze(s: string): (r: string)
    ensures NoSpace(r)
  {
    if |s| == 0 then ""
    else if IsSpace(s[0]) then Squeeze(s[1..])
    else [s[0]] + Squeeze(s[1..])
  }

  lemma {:induction false} SqueezeAppend(a: string, b: string)
    ensures Squeeze(a + b) == Squeeze(a) + Squeeze(b)
    decreases |a|
  {
    if |a| > 0 {
      SqueezeAppend(a[1..], b);
      assert (a + b)[1..] == a[1..] + b;
    } else {
      assert a + b == b;
    }
  }

  lemma {:induction false} SqueezeNoSpace(w: string)
    requires NoSpace(w)
    ensures Squeeze(w) == w
    decreases |w|
  {
    if |w| > 0 {
      SqueezeNoSpace(w[1..]);
    }
  }

  /** No character is lost or invented by the split: the words, run
      together, are the phrase without its separators. */
  lemma {:induction false} WordsKeepEveryCharacter(s: string)
    ensures Concat(Words(s)) == Squeeze(s)
    decreases |s|
  {
    if |s| > 0 {
      if IsSpace(s[0]) {
        WordsKeepEveryCharacter(s[1..]);
      } else {
        var n := WordLength(s);
        WordsKeepEveryCharacter(s[n..]);
        assert ([s[..n]] + Words(s[n..]))[1..] == Words(s[n..]);
        assert s == s[..n] + s[n..];
        SqueezeAppend(s[..n], s[n..]);
        SqueezeNoSpace(s[..n]);
      }
    }
  }

  lemma {:induction false} WordLengthOfJoin(w: string, rest: string)
    requires IsWord(w)
    requires rest == "" || IsSpace(rest[0])
    ensures WordLength(w + rest) == |w|
    decreases |w|
  {
    if |w| > 1 {
      assert (w + rest)[1..] == w[1..] + rest;
      WordLengthOfJoin(w[1..], rest);
    }
  }

  /** The word length is the one position where the first word ends. */
  lemma WordLengthUnique(s: string, k: nat)
    requires |s| > 0 && !IsSpace(s[0])
    requires 1 <= k <= |s| && NoSpace(s[..k])
    requires k < |s| ==> IsSpace(s[k])
    ensures WordLength(s) == k
  {
    var n := WordLength(s);
    assert forall i :: 0 <= i < k ==> s[..k][i] == s[i];
    assert forall i :: 0 <= i < n ==> s[..n][i] == s[i];
  }

  /** A word of `a` ends at the latest at a separator after `a`, so the
      first word of `a` is split off the longer phrase too. */
  lemma FirstWordBeforeSpace(a: string, c: char, b: string)
    requires |a| > 0 && !IsSpace(a[0]) && IsSpace(c)
    ensures Words(a + [c] + b) == [a[..WordLength(a)]] + Words(a[WordLength(a)..] + [c] + b)
  {
    var s := a + [c] + b;
    var m := WordLength(a);
    assert s[..m] == a[..m];
    assert m < |a| ==> s[m] == a[m];
    assert m == |a| ==> s[m] == c;
    WordLengthUnique(s, m);
    assert s[m..] == a[m..] + [c] + b;
  }

  /** A separator splits the phrase: the words of what comes before it,
      then the words of what comes after. */
  lemma {:induction false} WordsSplitAtSpace(a: string, c: char, b: string)
    requires IsSpace(c)
    ensures Words(a + [c] + b) == Words(a) + Words(b)
    decreases |a|
  {
    var s := a + [c] + b;
    if |a| == 0 {
      assert s[1..] == b;
    } else if IsSpace(a[0]) {
      assert s[1..] == a[1..] + [c] + b;
      WordsSplitAtSpace(a[1..], c, b);
    } else {
      var m := WordLength(a);
      FirstWordBeforeSpace(a, c, b);
      WordsSplitAtSpace(a[m..], c, b);
      assert Words(a) == [a[..m]] + Words(a[m..]);
    }
  }

  /** A single word splits to itself. */
  lemma WordsOfWord(w: string)
    requires IsWord(w)
    ensures Words(w) == [w]
  {
    WordLengthUnique(w, |w|);
    assert w[..|w|] == w;
    assert w[|w|..] == "";
  }

  /** A run of separators before and between words is dropped, as
      `"  a b".split()` gives `['a', 'b']`. */
  lemma LeadingSeparatorsDropped()
    ensures Words("  a b") == ["a", "b"]
  {
    assert "  a b" == "" + [' '] + " a b";
    assert " a b" == "" + [' '] + "a b";
    assert "a b" == "a" + [' '] + "b";
    WordsSplitAtSpace("", ' ', " a b");
    WordsSplitAtSpace("", ' ', "a b");
    WordsSplitAtSpace("a", ' ', "b");
    WordsOfWord("a");
    WordsOfWord("b");
  }

  /** Splitting words joined by single spaces gives the words back. */
  lemma {:induction false} WordsOfJoin(ws: seq<string>)
    requires forall i :: 0 <= i < |ws| ==> IsWord(ws[i])
    ensures Words(Text.Join(" ", ws)) == ws
    decreases |ws|
  {
    if |ws| == 1 {
      WordLengthOfJoin(ws[0], "");
      assert ws[0] + "" == ws[0];
      assert ws[0][|ws[0]|..] == "";
    } else if |ws| > 1 {
      var tail := Text.Join(" ", ws[1..]);
      var s := Text.Join(" ", ws);
      assert s == ws[0] + (" " + tail);
      WordLengthOfJoin(ws[0], " " + tail);
      assert s[..|ws[0]|] == ws[0];
      assert s[|ws[0]|..] == " " + tail;
      assert (" " + tail)[1..] == tail;
      WordsOfJoin(ws[1..]);
      assert ws == [ws[0]] + ws[1..];
    }
  }

  /** One word card: its number and the word. */
  datatype WordCard = WordCard(number: string, word: string)

  /** The number shown above the word at index `i`: a `#` and the decimal
      numeral of `i + 1`. */
  function Label(i: nat): (r: string)
    ensures |r| >= 2 && r[0] == '#' && r[1] != '0'
    ensures forall k :: 1 <= k < |r| ==> '0' <= r[k] <= '9'
    ensures Text.DigitsValue(r[1..]) == i + 1
  {
    Text.NatToStringRoundTrip(i + 1);
    var r := "#" + Text.NatToString(i + 1);
    assert r[1..] == Text.NatToString(i + 1);
    r
  }

  /** Different positions get different numbers. */
  lemma LabelsDistinct(i: nat, j: nat)
    ensures Label(i) == Label(j) ==> i == j
  {
    if Label(i) == Label(j) {
      assert Label(i)[1..] == Text.NatToString(i + 1);
      assert Label(j)[1..] == Text.NatToString(j + 1);
      Text.NatToStringInjective(i + 1, j + 1);
    }
  }

  /** The cards in word order. */
  function Cards(words: seq<string>): (r: seq<WordCard>)
    ensures |r| == |words|
    ensures forall i :: 0 <= i < |r| ==> r[i] == WordCard(Label(i), words[i])
  {
    seq(|words|, i requires 0 <= i < |words| => WordCard(Label(i), words[i]))
  }

  /** `_create_word_columns`: the first half (rounded down) of the cards, and
      the rest. */
  function Columns(words: seq<string>): (r: (seq<WordCard>, seq<WordCard>))
    ensures r.0 + r.1 == Cards(words)
    ensures |r.0| == |words| / 2 && |r.1| == |words| - |words| / 2
    ensures |r.0| <= |r.1| <= |r.0| + 1
    ensures forall i :: 0 <= i < |r.1| ==> r.1[i] == WordCard(Label(|r.0| + i), words[|r.0| + i])
  {
    var cards := Cards(words);
    var half := |words| / 2;
    assert cards[..half] + cards[half..] == cards;
    (cards[..half], cards[half..])
  }

  /** The two columns of a phrase hold as many cards as there are words;
      the cards they split show every word once, in order, numbered from
      one, and no two cards carry the same number. */
  lemma ColumnsShowPhrase(phrase: string)
    ensures |Columns(Words(phrase)).0| + |Columns(Words(phrase)).1| == |Words(phrase)|
    ensures forall i :: 0 <= i < |Words(phrase)| ==>
              Cards(Words(phrase))[i].word == Words(phrase)[i] && Cards(Words(phrase))[i].number == Label(i)
    ensures forall i, j :: 0 <= i < j < |Cards(Words(phrase))| ==>
              Cards(Words(phrase))[i].number != Cards(Words(phrase))[j].number
  {
    var cards := Cards(Words(phrase));
    forall i, j | 0 <= i < j < |cards|
      ensures cards[i].number != cards[j].number
    {
      LabelsDistinct(i, j);
    }
  }
}

=== FILE: models.dfy ===
/** The wallet's value objects: operation kinds, transaction requests and
    results, and the outcome of classifying a key. */
module Models {
  import opened Base

  /** The two kinds of operation the wallet can submit. */
  datatype OperationType = Transfer | CreateAccount
  {
    /** The enum member's `.value` tag. */
    function Value(): string
    {
      match this
      case Transfer => "transfer"
      case CreateAccount => "create_account"
    }
  }

  /** `OperationType(tag)`: the member whose tag is `tag`, or `None` where
      Python raises `ValueError`. */
  function OperationTypeOf(tag: string): (r: Option<OperationType>)
    ensures r.Some? ==> r.value.Value() == tag
    ensures r.None? ==> forall t: OperationType :: t.Value() != tag
  {
    if tag == "transfer" then Some(Transfer)
    else if tag == "create_account" then Some(CreateAccount)
    else None
  }

  /** Reading a member back from its tag gives the member. */
  lemma OperationTypeRoundTrip(t: OperationType)
    ensures OperationTypeOf(t.Value()) == Some(t)
  {
  }

  /** Distinct members carry distinct tags. */
  lemma OperationTypeTagsDistinct(a: OperationType, b: OperationType)
    ensures a.Value() == b.Value() <==> a == b
  {
  }

  /** The result of one submission attempt. `operationType` and `hash`
      default to absent, so a failure built from two arguments has neither. */
  datatype TransactionResult = TransactionResult(
    success: bool,
    message: string,
    operationType: Option<OperationType> := None,
    hash: Option<string> := None)

  /** A transaction request as collected from the transfer form. */
  datatype TransactionData = TransactionData(
    sourceSecret: string,
    destinationId: string,
    amount: string,
    operationType: OperationType,
    memo: Option<string> := None,
    assetType: Option<string> := None)

  /** How a free-text key was classified. */
  datatype KeyType = Public | Private | Invalid
  {
    function Value(): string
    {
      match this
      case Public => "public"
      case Private => "private"
      case Invalid => "invalid"
    }
  }

  /** The classification with the public key it yields and the error shown
      to the user; both texts default to empty. */
  datatype KeyValidationResult = KeyValidationResult(
    keyType: KeyType,
    publicKey: string := "",
    errorMessage: string := "")

  /** The three key kinds carry three distinct tags. */
  lemma KeyTypeTagsDistinct(a: KeyType, b: KeyType)
    ensures a.Value() == b.Value() <==> a == b
  {
  }

  /** The defaults of the result records: a two-argument failure carries no
      operation type and no hash, a one-argument key result no texts, and a
      four-argument transaction request no memo and no asset. */
  lemma RecordDefaults(success: bool, message: string, k: KeyType,
                       secret: string, dest: string, amount: string, op: OperationType)
    ensures TransactionResult(success, message).operationType.None?
    ensures TransactionResult(success, message).hash.None?
    ensures KeyValidationResult(k).publicKey == ""
    ensures KeyValidationResult(k).errorMessage == ""
    ensures TransactionData(secret, dest, amount, op).memo.None?
    ensures TransactionData(secret, dest, amount, op).assetType.None?
  {
  }
}

=== FILE: oracles.dfy ===
/** The collaborators the wallet cannot see into: the Stellar SDK (key
    parsing, decimal parsing, transaction assembly and signing) and the
    Horizon server. Each is a record of functions supplied by the caller, so
    every property proved below holds whatever they answer. */
module Oracles {
  import opened Base

  /** What `decimal.Decimal(text)` produces when it does not raise. */
  datatype Decimal = Finite(r: real) | Infinity(negative: bool) | NaN

  /** A decimal strictly greater than zero. `NaN` has no order: comparing it
      raises `InvalidOperation`, which the form reports like a parse error. */
  predicate Positive(d: Decimal)
  {
    match d
    case Finite(r) => r > 0.0
    case Infinity(negative) => !negative
    case NaN => false
  }

  /** A source account as `load_account` returns it. */
  datatype Account = Account(accountId: string, sequence: int)

  /** The one operation a transaction carries. Payments only ever use the
      native asset. */
  datatype Operation =
    | CreateAccountOp(destination: string, startingBalance: string)
    | NativePaymentOp(destination: string, amount: string)

  /** Everything handed to `TransactionBuilder` by `build_transaction`. */
  datatype TxPlan = TxPlan(
    source: Account,
    passphrase: string,
    baseFee: nat,
    operation: Operation,
    memo: Option<string>)

  /** A transaction built with a timeout of `timeout` seconds and signed by
      the holder of the secret behind the public key `signer`. */
  datatype Envelope = Envelope(plan: TxPlan, timeout: nat, signer: string)

  /** The SDK. `fromSecret` yields the derived public key or the error text;
      `fromPublicKey` only accepts or rejects; `parseDecimal` is `None`
      where `Decimal(...)` raises; `seal` stands for `set_timeout(...).build()`
      followed by `sign(...)` and every builder step that can raise. */
  datatype Sdk = Sdk(
    fromSecret: string -> Fetch<string>,
    fromPublicKey: string -> Outcome,
    parseDecimal: string -> Option<Decimal>,
    seal: Envelope -> Outcome)

  /** The answer to `server.accounts().account_id(id).call()`. */
  datatype Lookup =
    | Found(balances: seq<map<string, string>>)
    | NotFound
    | BadResponse(cause: string)
    | OtherErr(cause: string)

  /** The answer to `server.submit_transaction(...)`. */
  datatype Submit = Accepted(hash: string) | Rejected(cause: string)

  /** The Horizon server. */
  datatype Horizon = Horizon(
    account: string -> Lookup,
    loadAccount: string -> Fetch<Account>,
    baseFee: Fetch<nat>,
    submit: Envelope -> Submit)

  /** One network round trip, recorded in the order it is made. */
  datatype Call =
    | AccountCall(id: string)
    | LoadAccountCall(id: string)
    | FetchBaseFeeCall
    | SubmitCall(envelope: Envelope)
  {
    predicate IsLoadOrSubmit()
    {
      LoadAccountCall? || SubmitCall?
    }
  }

  /** No load of the source account and no submission occur in `trace`. */
  predicate NothingSent(trace: seq<Call>)
  {
    forall i :: 0 <= i < |trace| ==> !trace[i].IsLoadOrSubmit()
  }

  /** The public key of a secret in Stellar's key format starts with `G`. */
  ghost predicate DerivesPublicKeys(sdk: Sdk)
  {
    forall s :: sdk.fromSecret(s).Got? ==> |sdk.fromSecret(s).value| > 0 && sdk.fromSecret(s).value[0] == 'G'
  }
}

=== FILE: stable_sort.dfy ===
/** A stable insertion sort by a (rank, text) key: the behaviour of Python's
    `list.sort(key=lambda x: (rank, code))`, which compares tuples
    component-wise and never reorders elements whose keys are equal. */
module StableSort {
  import Text

  /** The sort key: a rank compared as a number, then a text compared as a
      Python string. */
  datatype SortKey = SortKey(rank: nat, code: string)

  predicate KeyLess(a: SortKey, b: SortKey)
  {
    a.rank < b.rank || (a.rank == b.rank && Text.Less(a.code, b.code))
  }

  lemma KeyLessIrreflexive(a: SortKey)
    ensures !KeyLess(a, a)
  {
    Text.LessIrreflexive(a.code);
  }

  lemma KeyLessTransitive(a: SortKey, b: SortKey, c: SortKey)
    requires KeyLess(a, b) && KeyLess(b, c)
    ensures KeyLess(a, c)
  {
    if a.rank == b.rank == c.rank {
      Text.LessTransitive(a.code, b.code, c.code);
    }
  }

  lemma KeyLessTotal(a: SortKey, b: SortKey)
    ensures a == b || KeyLess(a, b) || KeyLess(b, a)
  {
    Text.LessTotal(a.code, b.code);
  }

  /** No element is followed by one with a smaller key. */
  ghost predicate Sorted<T>(s: seq<T>, key: T -> SortKey)
  {
    forall i, j :: 0 <= i < j < |s| ==> !KeyLess(key(s[j]), key(s[i]))
  }

  /** The elements of `s` whose key is `k`, in their order in `s`. */
  function Filter<T>(s: seq<T>, k: SortKey, key: T -> SortKey): seq<T>
  {
    if |s| == 0 then []
    else (if key(s[0]) == k then [s[0]] else []) + Filter(s[1..], k, key)
  }

  /** Puts `x` in front of the first element whose key is not smaller than
      its own, hence in front of every element with an equal key. */
  function Insert<T>(x: T, s: seq<T>, key: T -> SortKey): seq<T>
  {
    if |s| == 0 then [x]
    else if KeyLess(key(s[0]), key(x)) then [s[0]] + Insert(x, s[1..], key)
    else [x] + s
  }


  lemma {:induction false} InsertMultiset<T>(x: T, s: seq<T>, key: T -> SortKey)
    ensures multiset(Insert(x, s, key)) == multiset(s) + multiset{x}
  {
    if |s| > 0 && KeyLess(key(s[0]), key(x)) {
      InsertMultiset(x, s[1..], key);
      assert s == [s[0]] + s[1..];
    }
  }

  lemma {:induction false} InsertSorted<T>(x: T, s: seq<T>, key: T -> SortKey)
    requires Sorted(s, key)
    ensures Sorted(Insert(x, s, key), key)
  {
    var r := Insert(x, s, key);
    if |s| == 0 {
    } else if KeyLess(key(s[0]), key(x)) {
      var rest := Insert(x, s[1..], key);
      InsertSorted(x, s[1..], key);
      InsertMultiset(x, s[1..], key);
      forall j | 0 < j < |r|
        ensures !KeyLess(key(r[j]), key(r[0]))
      {
        var e := rest[j - 1];
        assert e in multiset(rest);
        if e == x {
          KeyLessTotal(key(s[0]), key(x));
          KeyLessIrreflexive(key(x));
          if KeyLess(key(x), key(s[0])) {
            KeyLessTransitive(key(x), key(s[0]), key(x));
          }
        } else {
          assert e in s[1..];
          var m :| 0 <= m < |s[1..]| && s[1..][m] == e;
          assert s[m + 1] == e;
        }
      }
    } else {
      forall i, j | 0 <= i < j < |r|
        ensures !KeyLess(key(r[j]), key(r[i]))
      {
        if i == 0 {
          assert r[j] == s[j - 1];
          if KeyLess(key(s[j - 1]), key(x)) {
            KeyLessTotal(key(s[0]), key(x));
            if j - 1 > 0 {
              assert !KeyLess(key(s[j - 1]), key(s[0]));
              KeyLessTotal(key(s[j - 1]), key(s[0]));
              if KeyLess(key(s[0]), key(s[j - 1])) {
                KeyLessTransitive(key(s[0]), key(s[j - 1]), key(x));
              }
            }
          }
        }
      }
    }
  }

  lemma FilterCons<T>(x: T, s: seq<T>, k: SortKey, key: T -> SortKey)
    ensures Filter([x] + s, k, key) == (if key(x) == k then [x] else []) + Filter(s, k, key)
  {
    assert ([x] + s)[1..] == s;
  }

  lemma {:induction false} InsertFilter<T>(x: T, s: seq<T>, k: SortKey, key: T -> SortKey)
    ensures Filter(Insert(x, s, key), k, key) ==
              (if key(x) == k then [x] else []) + Filter(s, k, key)
  {
    if |s| == 0 {
      FilterCons(x, s, k, key);
    } else if KeyLess(key(s[0]), key(x)) {
      var rest := Insert(x, s[1..], key);
      var cx := if key(x) == k then [x] else [];
      var c0 := if key(s[0]) == k then [s[0]] else [];
      KeyLessIrreflexive(key(x));
      assert c0 + cx == cx + c0 by { assert c0 == [] || cx == []; }
      calc {
        Filter(Insert(x, s, key), k, key);
        Filter([s[0]] + rest, k, key);
        { FilterCons(s[0], rest, k, key); }
        c0 + Filter(rest, k, key);
        { InsertFilter(x, s[1..], k, key); }
        c0 + (cx + Filter(s[1..], k, key));
        cx + (c0 + Filter(s[1..], k, key));
        { FilterCons(s[0], s[1..], k, key); assert s == [s[0]] + s[1..]; }
        cx + Filter(s, k, key);
      }
    } else {
      FilterCons(x, s, k, key);
    }
  }

  /** `InsertFilter` for every key at once. */
  lemma InsertFilterAll<T>(x: T, s: seq<T>, key: T -> SortKey)
    ensures forall k :: Filter(Insert(x, s, key), k, key) == (if key(x) == k then [x] else []) + Filter(s, k, key)
  {
    forall k
      ensures Filter(Insert(x, s, key), k, key) == (if key(x) == k then [x] else []) + Filter(s, k, key)
    {
      InsertFilter(x, s, k, key);
    }
  }

  /** `list.sort(key=...)`: sorts the tail, then inserts the head in front of
      its equals. The result rearranges the input, never has an element
      ahead of one with a smaller key, and keeps the input order among the
      elements of each key. */
  function Sort<T>(s: seq<T>, key: T -> SortKey): (r: seq<T>)
    ensures |r| == |s|
    ensures multiset(r) == multiset(s)
    ensures Sorted(r, key)
    ensures forall k :: Filter(r, k, key) == Filter(s, k, key)
  {
    if |s| == 0 then []
    else
      var t := Sort(s[1..], key);
      InsertMultiset(s[0], t, key);
      InsertSorted(s[0], t, key);
      InsertFilterAll(s[0], t, key);
      assert s == [s[0]] + s[1..];
      assert |multiset(Insert(s[0], t, key))| == |Insert(s[0], t, key)|;
      Insert(s[0], t, key)
  }

  lemma {:induction false} FilterHasKey<T>(s: seq<T>, k: SortKey, key: T -> SortKey, e: T)
    ensures e in Filter(s, k, key) <==> e in s && key(e) == k
  {
    if |s| > 0 {
      FilterHasKey(s[1..], k, key, e);
      assert s == [s[0]] + s[1..];
    }
  }

  /** Sorted sequences with the same elements per key are equal: a stable
      sort has exactly one possible output. */
  lemma {:induction false} SortedWithSameFiltersAreEqual<T>(r: seq<T>, t: seq<T>, key: T -> SortKey)
    requires Sorted(r, key) && Sorted(t, key)
    requires forall k :: Filter(r, k, key) == Filter(t, k, key)
    ensures r == t
    decreases |r| + |t|
  {
    if |r| == 0 || |t| == 0 {
      if |r| > 0 {
        LonelyElement(r, t, key);
      } else if |t| > 0 {
        LonelyElement(t, r, key);
      }
    } else {
      var a, b := key(r[0]), key(t[0]);
      // the first elements carry the smallest key of each side, and these agree
      assert r[0] in Filter(r, a, key) by { FilterHasKey(r, a, key, r[0]); }
      FilterHasKey(t, a, key, r[0]);
      var i :| 0 <= i < |t| && t[i] == r[0];
      assert t[0] in Filter(t, b, key) by { FilterHasKey(t, b, key, t[0]); }
      FilterHasKey(r, b, key, t[0]);
      var j :| 0 <= j < |r| && r[j] == t[0];
      KeyLessIrreflexive(a);
      assert !KeyLess(a, b) by {
        if i > 0 { assert !KeyLess(key(t[i]), key(t[0])); }
      }
      assert !KeyLess(b, a) by {
        if j > 0 { assert !KeyLess(key(r[j]), key(r[0])); }
      }
      KeyLessTotal(a, b);
      assert a == b;
      // so both heads are the first element of that key's filter
      assert Filter(r, a, key)[0] == r[0];
      assert Filter(t, a, key)[0] == t[0];
      assert r[0] == t[0];
      forall k
        ensures Filter(r[1..], k, key) == Filter(t[1..], k, key)
      {
        var fr, ft := Filter(r[1..], k, key), Filter(t[1..], k, key);
        assert Filter(r, k, key) == Filter(t, k, key);
        assert Filter(r, k, key) == (if a == k then [r[0]] else []) + fr;
        assert Filter(t, k, key) == (if a == k then [t[0]] else []) + ft;
        if a == k {
          assert fr == ([r[0]] + fr)[1..] == ([t[0]] + ft)[1..] == ft;
        } else {
          assert fr == [] + fr && ft == [] + ft;
        }
      }
      SortedWithSameFiltersAreEqual(r[1..], t[1..], key);
      assert r == [r[0]] + r[1..] && t == [t[0]] + t[1..];
    }
  }

  lemma LonelyElement<T>(r: seq<T>, t: seq<T>, key: T -> SortKey)
    requires |r| > 0 && |t| == 0
    ensures exists k :: Filter(r, k, key) != Filter(t, k, key)
  {
    FilterHasKey(r, key(r[0]), key, r[0]);
    assert Filter(t, key(r[0]), key) == [];
  }

  /** `Sort` is the one stable sort: any sorted output that keeps the input
      order within each key is the one `Sort` computes. */
  lemma SortIsUnique<T>(s: seq<T>, r: seq<T>, key: T -> SortKey)
    requires Sorted(r, key)
    requires forall k :: Filter(r, k, key) == Filter(s, k, key)
    ensures r == Sort(s, key)
  {
    SortedWithSameFiltersAreEqual(r, Sort(s, key), key);
  }

  /** Sorting sorted output changes nothing. */
  lemma SortIdempotent<T>(s: seq<T>, key: T -> SortKey)
    ensures Sort(Sort(s, key), key) == Sort(s, key)
  {
    SortIsUnique(Sort(s, key), Sort(s, key), key);
  }
}

=== FILE: text.dfy ===
/** Python's ordering on `str` and `str.join`, written out for `seq<char>`.
    Dafny's own `<` on sequences means "proper prefix", so the
    lexicographic order used by `list.sort` is defined here. */
module Text {

  /** `a < b` on Python strings: code point by code point, a proper prefix
      coming first. */
  predicate Less(a: string, b: string)
    // a string never precedes itself, and a proper prefix precedes the whole
    ensures Less(a, b) ==> a != b
    ensures a < b ==> Less(a, b)
  {
    if |a| == 0 then |b| > 0
    else if |b| == 0 then false
    else
      assert a < b ==> a[1..] < b[1..];
      a[0] < b[0] || (a[0] == b[0] && Less(a[1..], b[1..]))
  }

  /** `k` is the first position where `a` and `b` part, and `a` is the one
      that is smaller there (or has run out). */
  ghost predicate FirstDifferenceFavours(a: string, b: string, k: nat)
  {
    && k <= |a| && k <= |b|
    && a[..k] == b[..k]
    && ((k == |a| && k < |b|) || (k < |a| && k < |b| && a[k] < b[k]))
  }

  /** The recursive definition agrees with the textbook one: `a < b` iff
      they agree up to some position where `a` ends or holds the smaller
      character. */
  lemma {:induction false} LessIffFirstDifference(a: string, b: string)
    ensures Less(a, b) <==> exists k: nat :: FirstDifferenceFavours(a, b, k)
  {
    if Less(a, b) {
      var k := LessWitness(a, b);
    }
    if k: nat :| FirstDifferenceFavours(a, b, k) {
      FirstDifferenceGivesLess(a, b, k);
    }
  }

  lemma {:induction false} LessWitness(a: string, b: string) returns (k: nat)
    requires Less(a, b)
    ensures FirstDifferenceFavours(a, b, k)
    decreases |a|
  {
    if |a| == 0 {
      k := 0;
    } else if a[0] < b[0] {
      k := 0;
    } else {
      var k' := LessWitness(a[1..], b[1..]);
      k := k' + 1;
      assert a[..k] == [a[0]] + a[1..][..k'];
      assert b[..k] == [b[0]] + b[1..][..k'];
    }
  }

  lemma {:induction false} FirstDifferenceGivesLess(a: string, b: string, k: nat)
    requires FirstDifferenceFavours(a, b, k)
    ensures Less(a, b)
    decreases k
  {
    if k > 0 {
      assert a[0] == a[..k][0] == b[..k][0] == b[0];
      assert a[1..][..k - 1] == a[..k][1..];
      assert b[1..][..k - 1] == b[..k][1..];
      FirstDifferenceGivesLess(a[1..], b[1..], k - 1);
    }
  }

  lemma {:induction false} LessIrreflexive(a: string)
    ensures !Less(a, a)
    decreases |a|
  {
    if |a| > 0 {
      LessIrreflexive(a[1..]);
    }
  }

  lemma {:induction false} LessAsymmetric(a: string, b: string)
    ensures Less(a, b) ==> !Less(b, a)
    decreases |a|
  {
    if |a| > 0 && |b| > 0 {
      LessAsymmetric(a[1..], b[1..]);
    }
  }

  lemma {:induction false} LessTransitive(a: string, b: string, c: string)
    requires Less(a, b) && Less(b, c)
    ensures Less(a, c)
    decreases |a|
  {
    if |a| > 0 && a[0] == b[0] == c[0] {
      LessTransitive(a[1..], b[1..], c[1..]);
    }
  }

  /** Any two different strings are ordered one way or the other. */
  lemma {:induction false} LessTotal(a: string, b: string)
    ensures a == b || Less(a, b) || Less(b, a)
    decreases |a|
  {
    if |a| > 0 && |b| > 0 && a[0] == b[0] {
      LessTotal(a[1..], b[1..]);
      if a[1..] == b[1..] {
        assert a == [a[0]] + a[1..] && b == [b[0]] + b[1..];
      }
    }
  }

  /** `sep.join(parts)`. */
  function Join(sep: string, parts: seq<string>): string
  {
    if |parts| == 0 then ""
    else if |parts| == 1 then parts[0]
    else parts[0] + sep + Join(sep, parts[1..])
  }

  /** `str(n)` for a natural number. */
  function NatToString(n: nat): (r: string)
    ensures |r| > 0
    ensures forall i :: 0 <= i < |r| ==> '0' <= r[i] <= '9'
    ensures n > 0 ==> r[0] != '0'
    decreases n
  {
    if n < 10 then [Digit(n)] else NatToString(n / 10) + [Digit(n % 10)]
  }

  function Digit(d: nat): (c: char)
    requires d < 10
    ensures '0' <= c <= '9'
  {
    ['0', '1', '2', '3', '4', '5', '6', '7', '8', '9'][d]
  }

  /** `int(text)` for a string of decimal digits. */
  function DigitsValue(text: string): nat
    requires forall i :: 0 <= i < |text| ==> '0' <= text[i] <= '9'
    decreases |text|
  {
    if |text| == 0 then 0
    else 10 * DigitsValue(text[..|text| - 1]) + (text[|text| - 1] as int - '0' as int)
  }

  /** Reading a rendered number back gives the number. */
  lemma {:induction false} NatToStringRoundTrip(n: nat)
    ensures DigitsValue(NatToString(n)) == n
    decreases n
  {
    var r := NatToString(n);
    if n >= 10 {
      NatToStringRoundTrip(n / 10);
      assert r[..|r| - 1] == NatToString(n / 10);
    }
  }

  /** Different numbers render as different texts. */
  lemma NatToStringInjective(m: nat, n: nat)
    ensures NatToString(m) == NatToString(n) ==> m == n
  {
    NatToStringRoundTrip(m);
    NatToStringRoundTrip(n);
  }
}

=== FILE: transactions.dfy ===
/** `TransactionProcessor`: parse the secret, probe the destination, apply
    the business rule, load the source account, build, sign and submit.
    Each step's failure ends the attempt with a failed `TransactionResult`;
    the result comes with the Horizon calls made, in order. */
module Transactions {
  import opened Base
  import opened Models
  import opened Oracles

  /** The two copies of the processor: the one in the core services, bound
      to the public network, and the testnet copy inside the transfer page,
      whose success result records no operation type. */
  datatype Variant = Services | TransferPage
  {
    function Passphrase(): string
    {
      match this
      case Services => "Public Global Stellar Network ; September 2015"
      case TransferPage => "Test SDF Network ; September 2015"
    }

    function SuccessMessage(): string
    {
      match this
      case Services => "A transação foi processada com sucesso na rede Stellar"
      case TransferPage => "A transação foi processada com sucesso na rede Stellar."
    }
  }

  const TimeoutSeconds: nat := 30
  const NativeSelector := "XLM (Nativo)"
  const MissingDestination := "A conta de destino não existe"
  const ExistingDestination := "A conta de destino já existe"
  const UnsupportedAsset := "Ativo não suportado"
  const ProbeErrorPrefix := "Erro ao checar conta destino: "
  const ErrorPrefix := "Erro na transação: "

  /** `check_account_exists`: "not found" and a bad response both mean the
      account does not exist; any other failure is raised as a `ValueError`. */
  function CheckAccountExists(net: Horizon, id: string): (r: Fetch<bool>)
    ensures r == Got(true) <==> net.account(id).Found?
    ensures r == Got(false) <==> net.account(id).NotFound? || net.account(id).BadResponse?
    ensures r.Failed? <==> net.account(id).OtherErr?
    ensures r.Failed? ==> r.cause == ProbeErrorPrefix + net.account(id).cause
  {
    match net.account(id)
    case Found(_) => Got(true)
    case NotFound => Got(false)
    case BadResponse(_) => Got(false)
    case OtherErr(cause) => Failed(ProbeErrorPrefix + cause)
  }

  /** The operation a request asks for; a payment is only built for the
      native asset. */
  function OperationFor(data: TransactionData): (r: Fetch<Operation>)
    ensures r.Failed? <==> data.operationType == Transfer && data.assetType != Some(NativeSelector)
    ensures r.Failed? ==> r.cause == UnsupportedAsset
    ensures r.Got? ==> r.value.destination == data.destinationId
    ensures r.Got? && data.operationType == CreateAccount ==> r.value == CreateAccountOp(data.destinationId, data.amount)
    ensures r.Got? && data.operationType == Transfer ==> r.value == NativePaymentOp(data.destinationId, data.amount)
  {
    match data.operationType
    case CreateAccount => Got(CreateAccountOp(data.destinationId, data.amount))
    case Transfer =>
      if data.assetType == Some(NativeSelector) then Got(NativePaymentOp(data.destinationId, data.amount))
      else Failed(UnsupportedAsset)
  }

  /** The memo `build_transaction` adds: the request's, only when truthy. */
  function MemoOf(data: TransactionData): Option<string>
  {
    if Truthy(data.memo) then data.memo else None
  }

  /** `build_transaction`: fetch the base fee, then add the operation and,
      only if it is truthy, the memo. The fee is fetched before the asset
      is checked. */
  function BuildTransaction(v: Variant, net: Horizon, source: Account, data: TransactionData)
    : (r: (Fetch<TxPlan>, seq<Call>))
    ensures r.1 == [FetchBaseFeeCall]
    ensures r.0.Got? <==> net.baseFee.Got? && OperationFor(data).Got?
    ensures net.baseFee.Failed? ==> r.0 == Failed(net.baseFee.cause)
    ensures net.baseFee.Got? && OperationFor(data).Failed? ==> r.0 == Failed(UnsupportedAsset)
    ensures r.0.Got? ==>
              && r.0.value.source == source
              && r.0.value.passphrase == v.Passphrase()
              && r.0.value.baseFee == net.baseFee.value
              && r.0.value.operation == OperationFor(data).value
              && (r.0.value.memo.Some? <==> Truthy(data.memo))
              && (r.0.value.memo.Some? ==> r.0.value.memo == data.memo)
  {
    match net.baseFee
    case Failed(cause) => (Failed(cause), [FetchBaseFeeCall])
    case Got(fee) =>
      match OperationFor(data)
      case Failed(cause) => (Failed(cause), [FetchBaseFeeCall])
      case Got(op) =>
        (Got(TxPlan(source, v.Passphrase(), fee, op, MemoOf(data))), [FetchBaseFeeCall])
  }

  /** `s` starts with `prefix`. */
  predicate HasPrefix(s: string, prefix: string)
  {
    |prefix| <= |s| && s[..|prefix|] == prefix
  }

  /** A failure caught by the outer `except`: the exception's text behind a
      fixed prefix, and neither an operation type nor a hash. */
  function Failure(cause: string): (r: TransactionResult)
    ensures !r.success && r.hash.None? && r.operationType.None?
    ensures HasPrefix(r.message, ErrorPrefix)
    ensures r.message[|ErrorPrefix|..] == cause
  {
    TransactionResult(false, ErrorPrefix + cause)
  }

  /** The envelope sealed once the source account is loaded, the fee fetched
      and the operation built. */
  function EnvelopeFor(v: Variant, net: Horizon, data: TransactionData, signer: string): Envelope
    requires net.loadAccount(signer).Got? && net.baseFee.Got? && OperationFor(data).Got?
  {
    Envelope(TxPlan(net.loadAccount(signer).value, v.Passphrase(), net.baseFee.value, OperationFor(data).value, MemoOf(data)),
             TimeoutSeconds, signer)
  }

  /** The last steps: `set_timeout(30).build()`, `sign`, and the submission. */
  function SignAndSubmit(v: Variant, sdk: Sdk, net: Horizon, op: OperationType, signer: string, plan: TxPlan)
    : (r: (TransactionResult, seq<Call>))
    ensures |r.1| <= 1
    ensures |r.1| == 1 <==> sdk.seal(Envelope(plan, TimeoutSeconds, signer)).Pass?
    ensures |r.1| == 1 ==> r.1[0] == SubmitCall(Envelope(plan, TimeoutSeconds, signer))
    ensures r.0.success <==> |r.1| == 1 && net.submit(r.1[0].envelope).Accepted?
    ensures r.0.success ==> r.0 == TransactionResult(true, v.SuccessMessage(),
              if v == Services then Some(op) else None, Some(net.submit(r.1[0].envelope).hash))
    ensures !r.0.success ==> r.0.hash.None? && r.0.operationType.None? && HasPrefix(r.0.message, ErrorPrefix)
    // a failure carries the text of the exception the failing step raised
    ensures sdk.seal(Envelope(plan, TimeoutSeconds, signer)).Fail? ==>
              r.0 == Failure(sdk.seal(Envelope(plan, TimeoutSeconds, signer)).cause)
    ensures |r.1| == 1 && net.submit(r.1[0].envelope).Rejected? ==> r.0 == Failure(net.submit(r.1[0].envelope).cause)
  {
    var envelope := Envelope(plan, TimeoutSeconds, signer);
    match sdk.seal(envelope)
    case Fail(cause) => (Failure(cause), [])
    case Pass =>
      match net.submit(envelope)
      case Rejected(cause) => (Failure(cause), [SubmitCall(envelope)])
      case Accepted(hash) =>
        var opType := if v == Services then Some(op) else None;
        (TransactionResult(true, v.SuccessMessage(), opType, Some(hash)), [SubmitCall(envelope)])
  }

  /** Everything after the business rule has let the request through:
      load the source account, build, sign and submit. */
  function LoadBuildSubmit(v: Variant, sdk: Sdk, net: Horizon, data: TransactionData, signer: string)
    : (r: (TransactionResult, seq<Call>))
    ensures 1 <= |r.1| <= 3
    ensures r.1[0] == LoadAccountCall(signer)
    ensures |r.1| > 1 ==> net.loadAccount(signer).Got? && r.1[1] == FetchBaseFeeCall
    ensures |r.1| > 2 ==>
              && r.1[2].SubmitCall?
              && var e := r.1[2].envelope;
              && e.signer == signer
              && e.timeout == TimeoutSeconds
              && e.plan.passphrase == v.Passphrase()
              && e.plan.source == net.loadAccount(signer).value
              && net.baseFee.Got? && OperationFor(data).Got?
              && e.plan.baseFee == net.baseFee.value
              && e.plan.operation == OperationFor(data).value
              && e.plan.memo == MemoOf(data)
    ensures r.0.success <==> |r.1| == 3 && r.1[2].SubmitCall? && net.submit(r.1[2].envelope).Accepted?
    ensures r.0.success ==> r.0 == TransactionResult(true, v.SuccessMessage(),
              if v == Services then Some(data.operationType) else None, Some(net.submit(r.1[2].envelope).hash))
    ensures !r.0.success ==> r.0.hash.None? && r.0.operationType.None? && HasPrefix(r.0.message, ErrorPrefix)
    // a failure carries the text of the exception the failing step raised
    ensures net.loadAccount(signer).Failed? ==> r.0 == Failure(net.loadAccount(signer).cause)
    ensures |r.1| == 2 && net.baseFee.Failed? ==> r.0 == Failure(net.baseFee.cause)
    ensures |r.1| == 2 && net.baseFee.Got? && OperationFor(data).Failed? ==> r.0 == Failure(UnsupportedAsset)
    ensures net.loadAccount(signer).Got? && net.baseFee.Got? && OperationFor(data).Got?
            && sdk.seal(EnvelopeFor(v, net, data, signer)).Fail? ==>
              r.0 == Failure(sdk.seal(EnvelopeFor(v, net, data, signer)).cause)
    ensures |r.1| == 3 && net.submit(r.1[2].envelope).Rejected? ==> r.0 == Failure(net.submit(r.1[2].envelope).cause)
  {
    var loaded := [LoadAccountCall(signer)];
    match net.loadAccount(signer)
    case Failed(cause) => (Failure(cause), loaded)
    case Got(source) =>
      var (built, buildCalls) := BuildTransaction(v, net, source, data);
      match built
      case Failed(cause) => (Failure(cause), loaded + buildCalls)
      case Got(plan) =>
        var (result, submitCalls) := SignAndSubmit(v, sdk, net, data.operationType, signer, plan);
        (result, loaded + buildCalls + submitCalls)
  }

  /** `process_transaction`. */
  function ProcessTransaction(v: Variant, sdk: Sdk, net: Horizon, data: TransactionData)
    : (r: (TransactionResult, seq<Call>))
    // success exactly when the submission was accepted, with its hash
    ensures r.0.success <==> |r.1| == 4 && r.1[3].SubmitCall? && net.submit(r.1[3].envelope).Accepted?
    ensures r.0.success ==> r.0 == TransactionResult(true, v.SuccessMessage(),
              if v == Services then Some(data.operationType) else None, Some(net.submit(r.1[3].envelope).hash))
    ensures !r.0.success ==> r.0.hash.None? && r.0.operationType.None?
    // a failure is a business-rule rejection or a wrapped exception
    ensures !r.0.success ==>
              r.0.message in {MissingDestination, ExistingDestination} || HasPrefix(r.0.message, ErrorPrefix)
    // the calls are made in one fixed order, each only after the previous succeeded
    ensures |r.1| <= 4
    ensures |r.1| > 0 ==> sdk.fromSecret(data.sourceSecret).Got? && r.1[0] == AccountCall(data.destinationId)
    ensures |r.1| > 1 ==>
              && CheckAccountExists(net, data.destinationId).Got?
              && CheckAccountExists(net, data.destinationId).value == (data.operationType == Transfer)
              && r.1[1] == LoadAccountCall(sdk.fromSecret(data.sourceSecret).value)
    ensures |r.1| > 2 ==> net.loadAccount(sdk.fromSecret(data.sourceSecret).value).Got? && r.1[2] == FetchBaseFeeCall
    ensures |r.1| > 3 ==> net.baseFee.Got? && OperationFor(data).Got? && r.1[3].SubmitCall?
    // each wrapped exception carries the text of the step that raised it
    ensures sdk.fromSecret(data.sourceSecret).Failed? ==> r.0 == Failure(sdk.fromSecret(data.sourceSecret).cause)
    ensures |r.1| == 1 && CheckAccountExists(net, data.destinationId).Failed? ==>
              r.0 == Failure(CheckAccountExists(net, data.destinationId).cause)
    ensures |r.1| == 2 ==>
              && net.loadAccount(sdk.fromSecret(data.sourceSecret).value).Failed?
              && r.0 == Failure(net.loadAccount(sdk.fromSecret(data.sourceSecret).value).cause)
    ensures |r.1| == 3 && net.baseFee.Failed? ==> r.0 == Failure(net.baseFee.cause)
    ensures |r.1| == 3 && net.baseFee.Got? && OperationFor(data).Failed? ==> r.0 == Failure(UnsupportedAsset)
    ensures |r.1| == 3 && net.baseFee.Got? && OperationFor(data).Got? ==>
              && sdk.seal(EnvelopeFor(v, net, data, sdk.fromSecret(data.sourceSecret).value)).Fail?
              && r.0 == Failure(sdk.seal(EnvelopeFor(v, net, data, sdk.fromSecret(data.sourceSecret).value)).cause)
    ensures |r.1| == 4 && net.submit(r.1[3].envelope).Rejected? ==> r.0 == Failure(net.submit(r.1[3].envelope).cause)
  {
    match sdk.fromSecret(data.sourceSecret)
    case Failed(cause) => (Failure(cause), [])
    case Got(signer) =>
      var probed := [AccountCall(data.destinationId)];
      match CheckAccountExists(net, data.destinationId)
      case Failed(cause) => (Failure(cause), probed)
      case Got(destinationExists) =>
        if data.operationType == Transfer && !destinationExists then
          (TransactionResult(false, MissingDestination), probed)
        else if data.operationType == CreateAccount && destinationExists then
          (TransactionResult(false, ExistingDestination), probed)
        else
          assert destinationExists == (data.operationType == Transfer);
          var (result, calls) := LoadBuildSubmit(v, sdk, net, data, signer);
          (result, probed + calls)
  }

  /** What is submitted is the requested operation, from the loaded source
      account, on the variant's network, signed by the secret's owner, with
      the memo only when it is truthy. */
  lemma SubmittedEnvelope(v: Variant, sdk: Sdk, net: Horizon, data: TransactionData)
    ensures var r := ProcessTransaction(v, sdk, net, data);
            |r.1| > 3 ==>
              var e := r.1[3].envelope;
              && e.signer == sdk.fromSecret(data.sourceSecret).value
              && e.timeout == TimeoutSeconds
              && e.plan.passphrase == v.Passphrase()
              && e.plan.source == net.loadAccount(e.signer).value
              && net.baseFee.Got? && OperationFor(data).Got?
              && e.plan.baseFee == net.baseFee.value
              && e.plan.operation == OperationFor(data).value
              && e.plan.memo == MemoOf(data)
  {
  }

  /** A secret the SDK rejects ends the attempt before any network call. */
  lemma SecretParsedFirst(v: Variant, sdk: Sdk, net: Horizon, data: TransactionData)
    requires sdk.fromSecret(data.sourceSecret).Failed?
    ensures ProcessTransaction(v, sdk, net, data) ==
              (TransactionResult(false, ErrorPrefix + sdk.fromSecret(data.sourceSecret).cause), [])
  {
  }

  /** A probe that fails for any reason other than "not found" or a bad
      response ends the attempt right after the probe, with the probe's
      own prefix inside the transaction error prefix. */
  lemma ProbeErrorReported(v: Variant, sdk: Sdk, net: Horizon, data: TransactionData)
    requires sdk.fromSecret(data.sourceSecret).Got?
    requires net.account(data.destinationId).OtherErr?
    ensures ProcessTransaction(v, sdk, net, data) ==
              (Failure(ProbeErrorPrefix + net.account(data.destinationId).cause), [AccountCall(data.destinationId)])
    ensures ProcessTransaction(v, sdk, net, data).0.message ==
              ErrorPrefix + ProbeErrorPrefix + net.account(data.destinationId).cause
  {
  }

  /** A transfer to an account that is missing, or whose probe got a bad
      response, is refused without loading or submitting anything. */
  lemma TransferToMissingAccountRefused(v: Variant, sdk: Sdk, net: Horizon, data: TransactionData)
    requires data.operationType == Transfer
    requires sdk.fromSecret(data.sourceSecret).Got?
    requires net.account(data.destinationId).NotFound? || net.account(data.destinationId).BadResponse?
    ensures ProcessTransaction(v, sdk, net, data).0 == TransactionResult(false, MissingDestination)
    ensures ProcessTransaction(v, sdk, net, data).1 == [AccountCall(data.destinationId)]
    ensures NothingSent(ProcessTransaction(v, sdk, net, data).1)
  {
  }

  /** Creating an account that already exists is refused without loading or
      submitting anything. */
  lemma CreateExistingAccountRefused(v: Variant, sdk: Sdk, net: Horizon, data: TransactionData)
    requires data.operationType == CreateAccount
    requires sdk.fromSecret(data.sourceSecret).Got?
    requires net.account(data.destinationId).Found?
    ensures ProcessTransaction(v, sdk, net, data).0 == TransactionResult(false, ExistingDestination)
    ensures NothingSent(ProcessTransaction(v, sdk, net, data).1)
  {
  }

  /** The two refusals happen exactly when the destination's existence does
      not fit the operation, and then nothing is sent. */
  lemma RefusalsExactly(v: Variant, sdk: Sdk, net: Horizon, data: TransactionData)
    ensures var r := ProcessTransaction(v, sdk, net, data);
            r.0.message in {MissingDestination, ExistingDestination} <==>
              && sdk.fromSecret(data.sourceSecret).Got?
              && CheckAccountExists(net, data.destinationId).Got?
              && CheckAccountExists(net, data.destinationId).value != (data.operationType == Transfer)
    ensures var r := ProcessTransaction(v, sdk, net, data);
            r.0.message in {MissingDestination, ExistingDestination} ==> NothingSent(r.1)
  {
    assert !HasPrefix(MissingDestination, ErrorPrefix) by { assert MissingDestination[0] != ErrorPrefix[0]; }
    assert !HasPrefix(ExistingDestination, ErrorPrefix) by { assert ExistingDestination[0] != ErrorPrefix[0]; }
  }

  /** A transfer of anything but the native asset never reaches submission;
      once the account is loaded and the fee fetched it fails with the
      unsupported-asset message. */
  lemma NonNativeTransferNeverSubmitted(v: Variant, sdk: Sdk, net: Horizon, data: TransactionData)
    requires data.operationType == Transfer
    requires data.assetType != Some(NativeSelector)
    ensures var r := ProcessTransaction(v, sdk, net, data);
            !r.0.success && |r.1| <= 3
    ensures var r := ProcessTransaction(v, sdk, net, data);
            |r.1| == 3 && net.baseFee.Got? ==> r.0.message == ErrorPrefix + UnsupportedAsset
  {
  }

  /** Creating an account does not look at the asset selector. */
  lemma CreateAccountIgnoresAsset(v: Variant, sdk: Sdk, net: Horizon, data: TransactionData, asset: Option<string>)
    requires data.operationType == CreateAccount
    ensures ProcessTransaction(v, sdk, net, data) == ProcessTransaction(v, sdk, net, data.(assetType := asset))
  {
  }

  /** A valid native transfer to an existing account, with every network
      step answering, succeeds with the hash the network assigned. */
  lemma NativeTransferSucceeds(v: Variant, sdk: Sdk, net: Horizon, data: TransactionData, hash: string)
    requires data.operationType == Transfer && data.assetType == Some(NativeSelector)
    requires sdk.fromSecret(data.sourceSecret).Got?
    requires net.account(data.destinationId).Found?
    requires net.loadAccount(sdk.fromSecret(data.sourceSecret).value).Got?
    requires net.baseFee.Got?
    requires forall e :: sdk.seal(e).Pass? && net.submit(e) == Accepted(hash)
    ensures ProcessTransaction(v, sdk, net, data).0.success
    ensures ProcessTransaction(v, sdk, net, data).0.hash == Some(hash)
  {
  }

  /** The two copies of the processor make the same calls and reach the
      same result up to the point where a transaction is built; they differ
      only in what they sign. */
  lemma VariantsAgreeBeforeBuilding(sdk: Sdk, net: Horizon, data: TransactionData)
    ensures var a, b := ProcessTransaction(Services, sdk, net, data), ProcessTransaction(TransferPage, sdk, net, data);
            |a.1| < 3 ==> a == b
    ensures var a, b := ProcessTransaction(Services, sdk, net, data), ProcessTransaction(TransferPage, sdk, net, data);
            (|a.1| >= 3 <==> |b.1| >= 3) && forall i :: 0 <= i < 3 && i < |a.1| ==> a.1[i] == b.1[i]
  {
  }
}

=== FILE: transfer_form.dfy ===
/** The transfer page: the six ordered field checks, the operation-type
    switch that locks the asset selector, and one press of the send button
    from validation to the form it leaves behind. */
module TransferForm {
  import opened Base
  import opened Models
  import opened Oracles
  import opened Transactions

  const PrivateKeyRequired := "A chave privada é obrigatória"
  const RecipientRequired := "O endereço do destinatário é obrigatório"
  const AmountRequired := "A quantidade é obrigatória"
  const AmountNotPositive := "A quantidade deve ser maior que zero"
  const AmountInvalid := "Quantidade inválida"
  const SecretInvalid := "Chave privada inválida"
  const RecipientInvalid := "Endereço do destinatário inválido"
  const UnexpectedPrefix := "Erro inesperado: "

  /** The amount check: a text `Decimal` cannot read, or a `NaN` that cannot
      be compared with zero, is invalid; a number that is not above zero is
      refused as such. */
  function AmountCheck(sdk: Sdk, amount: string): (r: Option<string>)
    ensures r.None? <==> sdk.parseDecimal(amount).Some? && Positive(sdk.parseDecimal(amount).value)
    ensures r == Some(AmountInvalid) <==> sdk.parseDecimal(amount) in {None, Some(NaN)}
    ensures r == Some(AmountNotPositive) <==>
              sdk.parseDecimal(amount).Some? && !sdk.parseDecimal(amount).value.NaN? && !Positive(sdk.parseDecimal(amount).value)
  {
    match sdk.parseDecimal(amount)
    case None => Some(AmountInvalid)
    case Some(d) =>
      if d.NaN? then Some(AmountInvalid)
      else if Positive(d) then None
      else Some(AmountNotPositive)
  }

  /** `_validate_fields`: the first failing check's message, or `None`. */
  function ValidateFields(sdk: Sdk, privateKey: Option<string>, recipient: Option<string>, amount: Option<string>)
    : (r: Option<string>)
    ensures r.None? <==>
              && Truthy(privateKey) && Truthy(recipient) && Truthy(amount)
              && sdk.parseDecimal(amount.value).Some? && Positive(sdk.parseDecimal(amount.value).value)
              && sdk.fromSecret(privateKey.value).Got?
              && sdk.fromPublicKey(recipient.value).Pass?
    ensures r.Some? ==> r.value != ""
  {
    if !Truthy(privateKey) then Some(PrivateKeyRequired)
    else if !Truthy(recipient) then Some(RecipientRequired)
    else if !Truthy(amount) then Some(AmountRequired)
    else if AmountCheck(sdk, amount.value).Some? then AmountCheck(sdk, amount.value)
    else if sdk.fromSecret(privateKey.value).Failed? then Some(SecretInvalid)
    else if sdk.fromPublicKey(recipient.value).Fail? then Some(RecipientInvalid)
    else None
  }

  /** The six checks judged one by one, each as if it were the only one:
      the message it would report, or `None` when it passes. */
  function Checks(sdk: Sdk, privateKey: Option<string>, recipient: Option<string>, amount: Option<string>)
    : seq<Option<string>>
  {
    [ if Truthy(privateKey) then None else Some(PrivateKeyRequired),
      if Truthy(recipient) then None else Some(RecipientRequired),
      if Truthy(amount) then None else Some(AmountRequired),
      AmountCheck(sdk, TextOf(amount)),
      if sdk.fromSecret(TextOf(privateKey)).Got? then None else Some(SecretInvalid),
      if sdk.fromPublicKey(TextOf(recipient)).Pass? then None else Some(RecipientInvalid) ]
  }

  /** The first failure in a list of check outcomes. */
  function FirstFailure(outcomes: seq<Option<string>>): (r: Option<string>)
    ensures r.None? <==> forall i :: 0 <= i < |outcomes| ==> outcomes[i].None?
    ensures r.Some? ==> exists i :: 0 <= i < |outcomes| && outcomes[i] == r
                          && forall j :: 0 <= j < i ==> outcomes[j].None?
  {
    if |outcomes| == 0 then None
    else if outcomes[0].Some? then outcomes[0]
    else
      var rest := FirstFailure(outcomes[1..]);
      assert forall i :: 1 <= i < |outcomes| ==> outcomes[i] == outcomes[1..][i - 1];
      rest
  }

  /** The form reports exactly the first failing check, in the fixed order
      private key, recipient, amount present, amount valid, secret valid,
      recipient valid. */
  lemma ValidateFieldsReportsFirstFailure(sdk: Sdk, privateKey: Option<string>, recipient: Option<string>,
                                          amount: Option<string>)
    ensures ValidateFields(sdk, privateKey, recipient, amount) == FirstFailure(Checks(sdk, privateKey, recipient, amount))
  {
    var c := Checks(sdk, privateKey, recipient, amount);
    var c1, c2, c3, c4, c5 := c[1..], c[2..], c[3..], c[4..], c[5..];
    assert c1[1..] == c2 && c2[1..] == c3 && c3[1..] == c4 && c4[1..] == c5 && c5[1..] == [];
    assert FirstFailure(c5) == c[5];
    assert FirstFailure(c4) == if c[4].Some? then c[4] else c[5];
    assert FirstFailure(c3) == if c[3].Some? then c[3] else FirstFailure(c4);
    assert FirstFailure(c2) == if c[2].Some? then c[2] else FirstFailure(c3);
    assert FirstFailure(c1) == if c[1].Some? then c[1] else FirstFailure(c2);
  }

  /** Python truthiness: `None` and `""` both count as missing, but a
      whitespace-only text counts as present and is left to the later
      checks. */
  lemma BlankIsNotMissing(sdk: Sdk, privateKey: Option<string>, amount: Option<string>)
    requires Truthy(privateKey) && Truthy(amount)
    ensures ValidateFields(sdk, privateKey, None, amount) == Some(RecipientRequired)
    ensures ValidateFields(sdk, privateKey, Some(""), amount) == Some(RecipientRequired)
    ensures ValidateFields(sdk, privateKey, Some(" "), amount) != Some(RecipientRequired)
  {
  }

  /** An empty secret is reported before anything else, whatever the other
      fields hold. */
  lemma MissingSecretReportedFirst(sdk: Sdk, recipient: Option<string>, amount: Option<string>)
    ensures ValidateFields(sdk, Some(""), Some(""), Some("0")) == Some(PrivateKeyRequired)
    ensures ValidateFields(sdk, None, recipient, amount) == Some(PrivateKeyRequired)
  {
  }

  /** The transfer page's widgets, as far as the logic reads or writes them. */
  datatype Form = Form(
    privateKey: Option<string>,
    recipient: Option<string>,
    amount: Option<string>,
    memo: Option<string>,
    asset: Option<string>,
    assetDisabled: bool,
    operation: string,
    amountLabel: string,
    buttonDisabled: bool,
    loadingVisible: bool,
    errorText: Option<string>,
    errorVisible: bool,
    dialogHash: Option<string>)

  /** The page as `setup_components` builds it. */
  function InitialForm(): (f: Form)
    ensures Consistent(f)
    // transfer chosen, the selector unlocked on the native asset
    ensures f.operation == Transfer.Value() && !f.assetDisabled && f.asset == Some(NativeSelector)
    ensures f.amountLabel == "Quantidade"
    // the button ready, no spinner, no error, no dialog
    ensures !f.buttonDisabled && !f.loadingVisible && !f.errorVisible && f.dialogHash.None?
    ensures f.privateKey.None? && f.recipient.None? && f.amount.None? && f.memo.None?
  {
    Form(None, None, None, None, Some(NativeSelector), false, Transfer.Value(), "Quantidade",
         false, false, None, false, None)
  }

  /** The asset selector is locked exactly while "create account" is
      chosen, and then it shows the native asset. */
  predicate Consistent(f: Form)
  {
    && (f.assetDisabled <==> f.operation == CreateAccount.Value())
    && (f.assetDisabled ==> f.asset == Some(NativeSelector))
  }

  /** `_handle_operation_type_change`, after the radio group took `value`. */
  function OnOperationTypeChange(f: Form, value: string): (g: Form)
    ensures Consistent(g)
    ensures g.assetDisabled <==> value == CreateAccount.Value()
    ensures value == CreateAccount.Value() ==> g.asset == Some(NativeSelector)
    ensures value != CreateAccount.Value() ==> g.asset == f.asset
    ensures g.operation == value
    ensures g.amountLabel == if value == CreateAccount.Value() then "Quantidade Inicial (XLM)" else "Quantidade"
    ensures g.(assetDisabled := f.assetDisabled, asset := f.asset, operation := f.operation, amountLabel := f.amountLabel) == f
  {
    var isCreate := value == CreateAccount.Value();
    f.(operation := value,
       assetDisabled := isCreate,
       asset := if isCreate then Some(NativeSelector) else f.asset,
       amountLabel := if isCreate then "Quantidade Inicial (XLM)" else "Quantidade")
  }

  /** Going to "create account" and back leaves the selector unlocked on the
      native asset. */
  lemma CreateThenTransferLeavesNative(f: Form)
    ensures var g := OnOperationTypeChange(OnOperationTypeChange(f, CreateAccount.Value()), Transfer.Value());
            !g.assetDisabled && g.asset == Some(NativeSelector)
  {
  }

  /** `_clear_fields`. */
  function ClearFields(f: Form): (g: Form)
    ensures g.recipient == g.amount == g.memo == g.privateKey == Some("")
    ensures g.(privateKey := f.privateKey, recipient := f.recipient, amount := f.amount, memo := f.memo) == f
  {
    f.(recipient := Some(""), amount := Some(""), memo := Some(""), privateKey := Some(""))
  }

  /** `_update_error_message(message, True)`. */
  function ShowError(f: Form, message: string): (g: Form)
    ensures g.errorVisible && g.errorText == Some(message)
    ensures g.(errorText := f.errorText, errorVisible := f.errorVisible) == f
  {
    f.(errorText := Some(message), errorVisible := true)
  }

  /** Python's text for the `ValueError` of `OperationType(value)`. */
  function NotAnOperationType(value: string): string
  {
    "'" + value + "' is not a valid OperationType"
  }

  /** `_process_transaction` without its `finally` block. */
  function ProcessTransactionFlow(sdk: Sdk, net: Horizon, f: Form): (r: (Form, seq<Call>))
    // a validation error is shown and nothing is sent
    ensures ValidateFields(sdk, f.privateKey, f.recipient, f.amount).Some? ==>
              r.1 == [] && r.0 == ShowError(f, ValidateFields(sdk, f.privateKey, f.recipient, f.amount).value)
    // otherwise the testnet processor is run on the form's contents
    ensures ValidateFields(sdk, f.privateKey, f.recipient, f.amount).None? && OperationTypeOf(f.operation).Some? ==>
              var data := TransactionData(f.privateKey.value, f.recipient.value, f.amount.value,
                                          OperationTypeOf(f.operation).value, f.memo, f.asset);
              var (result, calls) := ProcessTransaction(TransferPage, sdk, net, data);
              && r.1 == calls
              && (result.success ==> r.0 == ClearFields(f.(dialogHash := if Truthy(result.hash) then result.hash else f.dialogHash)))
              && (!result.success ==> r.0 == ShowError(f, result.message))
    // an operation value that is no member's tag is reported as unexpected,
    // and nothing is sent
    ensures ValidateFields(sdk, f.privateKey, f.recipient, f.amount).None? && OperationTypeOf(f.operation).None? ==>
              r == (ShowError(f, UnexpectedPrefix + NotAnOperationType(f.operation)), [])
  {
    match ValidateFields(sdk, f.privateKey, f.recipient, f.amount)
    case Some(error) => (ShowError(f, error), [])
    case None =>
      match OperationTypeOf(f.operation)
      case None => (ShowError(f, UnexpectedPrefix + NotAnOperationType(f.operation)), [])
      case Some(op) =>
        var data := TransactionData(TextOf(f.privateKey), TextOf(f.recipient), TextOf(f.amount), op, f.memo, f.asset);
        var (result, calls) := ProcessTransaction(TransferPage, sdk, net, data);
        if result.success then
          var shown := if Truthy(result.hash) then f.(dialogHash := result.hash) else f;
          (ClearFields(shown), calls)
        else (ShowError(f, result.message), calls)
  }

  /** `_handle_transaction`: disable the button, show the spinner, hide the
      old error, run the flow, and in `finally` restore button and spinner. */
  function HandleTransaction(sdk: Sdk, net: Horizon, f: Form): (r: (Form, seq<Call>))
    ensures !r.0.buttonDisabled && !r.0.loadingVisible
    ensures Consistent(f) ==> Consistent(r.0)
    // the selector and the operation are never touched by a submission
    ensures r.0.asset == f.asset && r.0.assetDisabled == f.assetDisabled && r.0.operation == f.operation
  {
    var started := f.(buttonDisabled := true, loadingVisible := true, errorVisible := false);
    var (after, calls) := ProcessTransactionFlow(sdk, net, started);
    (after.(buttonDisabled := false, loadingVisible := false), calls)
  }

  /** A successful submission empties the four text fields, keeps the asset
      and the operation, and raises no error; so pressing the button again
      stops at the first check without any network call. */
  lemma SuccessClearsForm(sdk: Sdk, net: Horizon, f: Form)
    requires ValidateFields(sdk, f.privateKey, f.recipient, f.amount).None?
    requires OperationTypeOf(f.operation).Some?
    requires ProcessTransaction(TransferPage, sdk, net,
               TransactionData(f.privateKey.value, f.recipient.value, f.amount.value,
                               OperationTypeOf(f.operation).value, f.memo, f.asset)).0.success
    ensures var g := HandleTransaction(sdk, net, f).0;
            && g.privateKey == g.recipient == g.amount == g.memo == Some("")
            && !g.errorVisible
            && HandleTransaction(sdk, net, g) == (ShowError(g, PrivateKeyRequired).(buttonDisabled := false, loadingVisible := false), [])
  {
    var g := HandleTransaction(sdk, net, f).0;
    assert ValidateFields(sdk, g.privateKey, g.recipient, g.amount) == Some(PrivateKeyRequired);
  }

  /** A failed submission keeps every field and shows the processor's
      message. */
  lemma FailureKeepsFields(sdk: Sdk, net: Horizon, f: Form)
    requires ValidateFields(sdk, f.privateKey, f.recipient, f.amount).None?
    requires OperationTypeOf(f.operation).Some?
    ensures var data := TransactionData(f.privateKey.value, f.recipient.value, f.amount.value,
                                        OperationTypeOf(f.operation).value, f.memo, f.asset);
            var result := ProcessTransaction(TransferPage, sdk, net, data).0;
            var g := HandleTransaction(sdk, net, f).0;
            !result.success ==>
              && g.privateKey == f.privateKey && g.recipient == f.recipient
              && g.amount == f.amount && g.memo == f.memo
              && g.errorVisible && g.errorText == Some(result.message)
  {
  }
}

=== FILE: wallet_app.dfy ===
/** The standalone wallet screen: creating a keypair, masking and revealing
    the secret, copying it, and the balance summary of `check_balance`. */
module WalletApp {
  import opened Base
  import opened Oracles
  import Text

  const MaskLength := 56

  /** Fifty-six bullets stand in for the secret while it is hidden. */
  function Mask(): (m: string)
    ensures |m| == MaskLength
    ensures forall i :: 0 <= i < |m| ==> m[i] == '•'
  {
    seq(MaskLength, _ => '•')
  }

  /** The icon of the reveal button. */
  datatype Icon = Visibility | VisibilityOff

  datatype Keypair = Keypair(publicKey: string, secret: string)

  /** What the screen pops up: a snack bar text, or the "account not
      activated" dialog. */
  datatype Notice = Snack(text: string) | NotActivated

  const CreatedMessage := "Carteira criada com sucesso!"
  const NoWalletMessage := "Crie uma carteira primeiro!"
  const BalanceErrorPrefix := "Erro ao verificar saldo: "
  const NoOtherAssets := "Nenhum outro ativo"

  datatype App = App(
    keypair: Option<Keypair>,
    publicText: string,
    privateText: string,
    icon: Icon,
    keyCardsVisible: bool,
    balanceButtonEnabled: bool,
    balanceCardVisible: bool,
    otherAssets: string,
    notice: Option<Notice>)

  /** The screen as `main` builds it: no keypair, the secret masked. */
  function InitialApp(): (a: App)
    ensures a.privateText == Mask() && a.icon == Visibility && a.keypair.None?
    ensures IconMatchesText(a)
    // the key cards and balance card hidden, the balance button disabled,
    // the public key blank, the default summary, and nothing popped up
    ensures a.publicText == "" && !a.keyCardsVisible && !a.balanceButtonEnabled && !a.balanceCardVisible
    ensures a.otherAssets == NoOtherAssets && a.notice.None?
  {
    App(None, "", Mask(), Visibility, false, false, false, NoOtherAssets, None)
  }

  /** The reveal button offers to reveal exactly while the secret is
      masked. */
  predicate IconMatchesText(a: App)
  {
    a.icon == Visibility <==> a.privateText == Mask()
  }

  /** `toggle_private_key_visibility`. */
  function TogglePrivateKey(a: App): (b: App)
    ensures a.keypair.None? ==> b == a
    ensures a.keypair.Some? && a.privateText == Mask() ==>
              b == a.(privateText := a.keypair.value.secret, icon := VisibilityOff)
    ensures a.keypair.Some? && a.privateText != Mask() ==>
              b == a.(privateText := Mask(), icon := Visibility)
  {
    match a.keypair
    case None => a
    case Some(kp) =>
      if a.privateText == Mask() then a.(privateText := kp.secret, icon := VisibilityOff)
      else a.(privateText := Mask(), icon := Visibility)
  }

  /** A Stellar secret starts with `S`, so it is never the mask. */
  lemma SecretIsNotMask(secret: string)
    requires |secret| > 0 && secret[0] == 'S'
    ensures secret != Mask()
  {
    assert Mask()[0] == '•';
  }

  /** Revealing and hiding again returns to the masked screen; and toggling
      keeps the icon in step with the text. */
  lemma ToggleTwiceRestoresMask(a: App)
    requires a.keypair.Some? && a.keypair.value.secret != Mask()
    requires a.privateText == Mask()
    ensures TogglePrivateKey(TogglePrivateKey(a)) == a.(icon := Visibility)
    ensures IconMatchesText(a) ==> TogglePrivateKey(TogglePrivateKey(a)) == a
  {
  }

  lemma TogglePreservesIconMatch(a: App)
    requires a.keypair.Some? ==> a.keypair.value.secret != Mask()
    requires IconMatchesText(a)
    ensures IconMatchesText(TogglePrivateKey(a))
  {
  }

  /** `create_wallet` with the SDK's generated keypair `generated`. The text is
      masked again but the icon is left as it was. */
  function CreateWallet(a: App, generated: Keypair): (b: App)
    ensures b.keypair == Some(generated) && b.publicText == generated.publicKey
    ensures b.privateText == Mask()
    ensures b.icon == a.icon
    ensures b.keyCardsVisible && b.balanceButtonEnabled
    // the balance card and summary are left as they were, and the creation
    // is announced
    ensures b.balanceCardVisible == a.balanceCardVisible && b.otherAssets == a.otherAssets
    ensures b.notice == Some(Snack(CreatedMessage))
  {
    a.(keypair := Some(generated), publicText := generated.publicKey, privateText := Mask(),
       keyCardsVisible := true, balanceButtonEnabled := true, notice := Some(Snack(CreatedMessage)))
  }

  /** Reveal, then create another wallet: the secret is masked again but the
      button still shows the "hide" icon. */
  lemma CreateWalletAfterRevealShowsHideIcon(first: Keypair, second: Keypair)
    requires first.secret != Mask()
    ensures var revealed := TogglePrivateKey(CreateWallet(InitialApp(), first));
            var b := CreateWallet(revealed, second);
            b.privateText == Mask() && b.icon == VisibilityOff && !IconMatchesText(b)
  {
  }

  /** `create_wallet` as evidently intended: the icon is reset with the
      text. */
  function CreateWalletResettingIcon(a: App, generated: Keypair): (b: App)
    ensures IconMatchesText(b)
    ensures b.keypair == Some(generated) && b.privateText == Mask()
  {
    CreateWallet(a, generated).(icon := Visibility)
  }

  /** With the icon reset, every sequence of creations and toggles keeps the
      icon in step with the text. */
  lemma {:induction false} IconStaysInStep(a: App, steps: seq<Option<Keypair>>)
    requires IconMatchesText(a)
    requires a.keypair.Some? ==> a.keypair.value.secret != Mask()
    requires forall i :: 0 <= i < |steps| && steps[i].Some? ==> steps[i].value.secret != Mask()
    ensures IconMatchesText(Run(a, steps))
    decreases |steps|
  {
    if |steps| > 0 {
      var next := if steps[0].Some? then CreateWalletResettingIcon(a, steps[0].value) else TogglePrivateKey(a);
      assert IconMatchesText(next);
      IconStaysInStep(next, steps[1..]);
    }
  }

  /** Runs a session: `Some(kp)` creates a wallet with `kp`, `None` presses
      the reveal button. */
  function Run(a: App, steps: seq<Option<Keypair>>): App
    decreases |steps|
  {
    if |steps| == 0 then a
    else
      var next := if steps[0].Some? then CreateWalletResettingIcon(a, steps[0].value) else TogglePrivateKey(a);
      Run(next, steps[1..])
  }

  /** `copy_private_key`: the text put on the clipboard, if any. */
  function CopyPrivateKey(a: App): (copied: Option<string>)
    ensures copied.Some? <==> a.keypair.Some? && a.keypair.value.secret != ""
    ensures copied.Some? ==> copied.value == a.keypair.value.secret
  {
    if a.keypair.Some? && a.keypair.value.secret != "" then Some(a.keypair.value.secret) else None
  }

  /** Python's `str(KeyError(k))`. */
  function KeyErrorText(k: string): string
  {
    "'" + k + "'"
  }

  /** `d[k]`, raising `KeyError` when absent. */
  function Index(d: map<string, string>, k: string): (r: Fetch<string>)
    ensures r.Got? <==> k in d
    ensures r.Got? ==> r.value == d[k]
    ensures r.Failed? ==> r.cause == KeyErrorText(k)
  {
    if k in d then Got(d[k]) else Failed(KeyErrorText(k))
  }

  /** One balance line: `XLM: <balance>` for the native asset,
      `<code>: <balance>` otherwise; the keys are read in the order the
      f-strings read them. */
  function BalanceLine(b: map<string, string>): (r: Fetch<string>)
    ensures r.Got? ==> "asset_type" in b && "balance" in b
    ensures r.Got? && b["asset_type"] == "native" ==> r.value == "XLM: " + b["balance"]
    ensures r.Got? && b["asset_type"] != "native" ==>
              "asset_code" in b && r.value == b["asset_code"] + ": " + b["balance"]
    ensures r.Failed? <==> !("asset_type" in b && "balance" in b && (b["asset_type"] != "native" ==> "asset_code" in b))
    // the `KeyError` names the first missing key in reading order
    ensures r.Failed? ==> r.cause == KeyErrorText(
              if "asset_type" !in b then "asset_type"
              else if b["asset_type"] != "native" && "asset_code" !in b then "asset_code"
              else "balance")
  {
    match Index(b, "asset_type")
    case Failed(c) => Failed(c)
    case Got(assetType) =>
      if assetType == "native" then
        match Index(b, "balance")
        case Failed(c) => Failed(c)
        case Got(amount) => Got("XLM: " + amount)
      else
        match Index(b, "asset_code")
        case Failed(c) => Failed(c)
        case Got(code) =>
          match Index(b, "balance")
          case Failed(c) => Failed(c)
          case Got(amount) => Got(code + ": " + amount)
  }

  /** The lines of all balances in input order; the first bad record stops
      the loop. */
  function BalanceLines(bs: seq<map<string, string>>): (r: Fetch<seq<string>>)
    ensures r.Got? <==> forall i :: 0 <= i < |bs| ==> BalanceLine(bs[i]).Got?
    ensures r.Got? ==> |r.value| == |bs| && forall i :: 0 <= i < |bs| ==> r.value[i] == BalanceLine(bs[i]).value
    ensures r.Failed? ==> exists i :: 0 <= i < |bs| && BalanceLine(bs[i]) == Failed(r.cause)
                                      && forall j :: 0 <= j < i ==> BalanceLine(bs[j]).Got?
  {
    if |bs| == 0 then Got([])
    else
      match BalanceLine(bs[0])
      case Failed(c) => Failed(c)
      case Got(line) =>
        var rest := BalanceLines(bs[1..]);
        assert forall i :: 1 <= i < |bs| ==> bs[i] == bs[1..][i - 1];
        match rest
        case Failed(c) => Failed(c)
        case Got(lines) => Got([line] + lines)
  }

  /** The "other assets" text: every line after the first, whatever asset
      the first line is about. */
  function OtherAssets(lines: seq<string>): (r: string)
    ensures |lines| <= 1 ==> r == NoOtherAssets
  {
    if |lines| > 1 then Text.Join(" | ", lines[1..]) else NoOtherAssets
  }

  /** Only the first line is dropped, and it does not matter what it says. */
  lemma OtherAssetsDropsFirstLine(first: string, other: string, rest: seq<string>)
    ensures OtherAssets([first] + rest) == OtherAssets([other] + rest)
    ensures |rest| > 0 ==> OtherAssets([first] + rest) == Text.Join(" | ", rest)
  {
    assert ([first] + rest)[1..] == rest == ([other] + rest)[1..];
  }

  /** `part` occurs in `text` starting at position `k`. */
  ghost predicate OccursAt(part: string, text: string, k: int)
  {
    0 <= k && k + |part| <= |text| && text[k..k + |part|] == part
  }

  /** Each part of a join appears in it. */
  lemma {:induction false} JoinContainsParts(sep: string, parts: seq<string>, i: nat)
    requires i < |parts|
    ensures exists k :: OccursAt(parts[i], Text.Join(sep, parts), k)
    decreases |parts|
  {
    var j := Text.Join(sep, parts);
    if i == 0 {
      assert OccursAt(parts[0], j, 0);
    } else {
      JoinContainsParts(sep, parts[1..], i - 1);
      var tail := Text.Join(sep, parts[1..]);
      var k :| OccursAt(parts[1..][i - 1], tail, k);
      var off := |parts[0]| + |sep|;
      assert j == parts[0] + sep + tail;
      assert j[off + k..off + k + |parts[i]|] == tail[k..k + |parts[i]|];
      assert OccursAt(parts[i], j, off + k);
    }
  }

  /** Every line after the first appears in the summary. */
  lemma OtherAssetsShowsLaterLines(lines: seq<string>, i: nat)
    requires 1 <= i < |lines|
    ensures exists k :: OccursAt(lines[i], OtherAssets(lines), k)
  {
    JoinContainsParts(" | ", lines[1..], i - 1);
    assert lines[1..][i - 1] == lines[i];
    assert OtherAssets(lines) == Text.Join(" | ", lines[1..]);
    var k :| OccursAt(lines[1..][i - 1], Text.Join(" | ", lines[1..]), k);
    assert OccursAt(lines[i], OtherAssets(lines), k);
  }

  /** `check_balance`: with no keypair only a message is shown and no call
      is made; otherwise one account call, then the summary, the "not
      activated" dialog, or an error message. */
  function CheckBalance(a: App, net: Horizon): (r: (App, seq<Call>))
    ensures a.keypair.None? ==> r == (a.(notice := Some(Snack(NoWalletMessage))), [])
    ensures a.keypair.Some? ==> r.1 == [AccountCall(a.keypair.value.publicKey)]
    ensures r.0.keypair == a.keypair && r.0.privateText == a.privateText && r.0.icon == a.icon
    // only the balance card, the summary and the notice ever change
    ensures r.0 == a.(balanceCardVisible := r.0.balanceCardVisible, otherAssets := r.0.otherAssets, notice := r.0.notice)
    ensures a.keypair.Some? && net.account(a.keypair.value.publicKey).Found? ==> r.0.balanceCardVisible
    ensures a.keypair.Some? && net.account(a.keypair.value.publicKey).Found?
            && BalanceLines(net.account(a.keypair.value.publicKey).balances).Got? ==>
              r.0.otherAssets == OtherAssets(BalanceLines(net.account(a.keypair.value.publicKey).balances).value)
    ensures a.keypair.Some? && net.account(a.keypair.value.publicKey).Found?
            && BalanceLines(net.account(a.keypair.value.publicKey).balances).Failed? ==>
              r.0.notice == Some(Snack(BalanceErrorPrefix + BalanceLines(net.account(a.keypair.value.publicKey).balances).cause))
    ensures a.keypair.Some? && net.account(a.keypair.value.publicKey).Found?
            && BalanceLines(net.account(a.keypair.value.publicKey).balances).Got? ==>
              r.0.notice == a.notice
    ensures a.keypair.Some? && net.account(a.keypair.value.publicKey).Found?
            && BalanceLines(net.account(a.keypair.value.publicKey).balances).Failed? ==>
              r.0.otherAssets == a.otherAssets
    ensures a.keypair.Some? && net.account(a.keypair.value.publicKey).NotFound? ==>
              !r.0.balanceCardVisible && r.0.notice == Some(NotActivated) && r.0.otherAssets == a.otherAssets
    // any other failed lookup is reported and leaves the balance card as it was
    ensures a.keypair.Some? && (net.account(a.keypair.value.publicKey).BadResponse? || net.account(a.keypair.value.publicKey).OtherErr?) ==>
              && r.0.notice == Some(Snack(BalanceErrorPrefix + net.account(a.keypair.value.publicKey).cause))
              && r.0.balanceCardVisible == a.balanceCardVisible
              && r.0.otherAssets == a.otherAssets
  {
    match a.keypair
    case None => (a.(notice := Some(Snack(NoWalletMessage))), [])
    case Some(kp) =>
      var calls := [AccountCall(kp.publicKey)];
      match net.account(kp.publicKey)
      case Found(balances) =>
        var shown := a.(balanceCardVisible := true);
        (match BalanceLines(balances)
         case Got(lines) => (shown.(otherAssets := OtherAssets(lines)), calls)
         case Failed(cause) => (shown.(notice := Some(Snack(BalanceErrorPrefix + cause))), calls))
      case NotFound => (a.(balanceCardVisible := false, notice := Some(NotActivated)), calls)
      case BadResponse(cause) => (a.(notice := Some(Snack(BalanceErrorPrefix + cause))), calls)
      case OtherErr(cause) => (a.(notice := Some(Snack(BalanceErrorPrefix + cause))), calls)
  }
}
